=== FILE: README.md ===
# BCFlight configuration core, modelled in Dafny

BCFlight's flight controller reads its configuration from a Lua script. It reads it
through `Config` (`flight/Config.cpp`). This project models the logic that `Config`
adds on top of the Lua interpreter, and proves properties of that model.

- **The path resolver** `LocateValue` turns a path such as `gyroscopes.main.axis_swap.x`
  or `frame.motors[2].pin` into a value of the Lua state.
- **The typed readers** are `string`, `integer`, `number`, `boolean`, `integerArray`
  and `ArrayLength`. Each falls back to a default when the path is not found.
- **The settings overlay** (`mSettings`) is a map from names to text. `Reload` fills
  it from a `key = value` file, the setters update it, and `Save` writes it back.
- **The sensor wiring** covers `Apply`, which sets the axis swap of every configured
  and registered sensor, and the registration of `user_sensors` in `Reload`.

The Lua state is an immutable value (module `Document`). A value is nil, a boolean, an
integral number, a string or a table. The globals map names to values. The Lua C API
calls the core makes become functions on it:
- field lookup and integer-key lookup;
- the table border that `lua_objlen` returns;
- the number of entries a `lua_next` loop visits;
- `lua_toboolean`, `lua_tointeger` and `lua_tolstring`.

Modules:

| module | file | contents |
|---|---|---|
| `Wrappers` | wrappers.dfy | `Option` |
| `Text` | text.dfy | `ltrim`/`rtrim`/`trim`, `find`, `atoi`, decimal text of an `int` and the decimal parser Lua's coercions use |
| `Document` | document.dfy | Lua values, lookups, borders, coercions |
| `PathResolver` | path.dfy | `LocateValue`: the loop as written (`Scan`), a tokenizer/evaluator (`Tokenize`, `Run`), the corrected resolver `Locate` and its properties |
| `Accessors` | accessors.dfy | the typed readers |
| `Settings` | settings.dfy | line splitting, the line parser, `Save`, the setters, the overlay part of `Reload` |
| `Calibration` | calibration.dfy | `Apply` and the user-sensor registration |

Behaviour that follows the code, though a plain reading of the interface suggests otherwise:
- `ArrayLength` returns -1, not 0, for a path that names a value that is not a table.
- A settings line without `=` is not skipped. `npos + 1` wraps to 0, so its key and
  its value are both the whole trimmed line. An empty line stores the key `""`.
- `Reload` never clears the overlay. It loads the file's lines over what is already there.
- After a separator, `[` ends an empty token and does not set `in_table`, so `a.[1]` reads
  field `"1"` of `a`, not slot 1. Once set, `in_table` is never reset, so `a[1].2]` reads slot 2.
- Sensor names and `string` results are C strings: a Lua key or string is cut at its first NUL,
  so the keys `a\0b` and `a\0c` of `gyroscopes` both name the gyroscope `a`.

## Model

| member | source | states |
|---|---|---|
| PathResolver.ScanAgrees | flight/Config.cpp:176-217 | The character loop, with its `tmp`, `k`, `in_table` and stack top, computes the same result as tokenizing the rest of the path and walking the segments. |
| PathResolver.Scan | flight/Config.cpp:176-217 | The character loop as written. A found value is never nil when the stack top it starts from is not nil. `ScanAgrees` relates it to the evaluator. |
| PathResolver.LocateAsWritten | flight/Config.cpp:163-221 | `LocateValue` as written, from a stale stack top. A path without `.` and `[` is the direct global lookup. A found value is nil only when the stale top is nil, as for the path `.`. `LocateAgrees` shows it equals `Locate` on every path that does not start with a separator. |
| PathResolver.LocateAgrees | flight/Config.cpp:163-221 | For every path that does not start with a separator, the loop as written and the corrected `Locate` give the same result, whatever value was left on the stack. |
| PathResolver.StaleStackCounterexample | flight/Config.cpp:179-198 | With no globals and `{a = 1}` left on the stack, the loop as written finds `.a` as 1. The corrected resolver reports it not found. |
| PathResolver.Locate | flight/Config.cpp:163-221 | A found value is never nil. A path without `.` and `[` is a direct global lookup, not found exactly when that global is nil or absent. A found value needs the global named by the path's first token to be bound. A path that contains `.` or `[` and starts with a separator is not found; a path without them, such as `]x`, is the global of that name. The path ends at its first NUL, as `c_str()` does. |
| PathResolver.CString | flight/Config.cpp:165 | `c_str()` sees the longest NUL-free prefix: the text up to, not including, the first NUL, or all of it. |
| PathResolver.LocateName | flight/Config.cpp:165-218 | The same guarantees, for the NUL-free name the loop scans. |
| PathResolver.LocateStopsAtNil | flight/Config.cpp:200-202 | Once a prefix ending in `.` or `[` is not found, no continuation of it is found. Later tokens are never consulted. |
| PathResolver.LocateExtendField | flight/Config.cpp:211-216 | A trailing token is a field lookup on the value found so far. It is not found exactly when that field is nil. |
| PathResolver.LocateIndex | flight/Config.cpp:184-192 | `p[t]`, with `p` ending in a name character, is an integer-key lookup (by `atoi` of the leading digits of `t`) when `t` starts with a digit. Otherwise it is a field lookup on `t` verbatim, quotes included. `Bracket` is that choice. |
| PathResolver.LocateClosedToken | flight/Config.cpp:175-192 | A token closed by `]` after a prefix ending in a separator is a bracketed element when some earlier `[` set `in_table`, which is never reset, and a plain field otherwise. The walk goes on with the flag unchanged. |
| PathResolver.WalkIndex | flight/Config.cpp:184-192 | After `p[i]`, with `p` ending in a name character, `in_table` is set and element `i` of the value of `p` is on top; a nil element is not found. |
| PathResolver.LocateAfterIndex | flight/Config.cpp:175-192 | After `p[i]` and one more separator, a `]`-closed token is still an element: `a[1][2]`, `a[1].2]` and `a[1]]2]` all read element 2 of `a[1]`. |
| PathResolver.LocateDotBracket | flight/Config.cpp:179-186 | `a.[t]` is field `t` of global `a`, even when `t` is a number: the empty token between `.` and `[` is skipped before `[` could set `in_table`. |
| PathResolver.LocateSkipsEmptyToken | flight/Config.cpp:179-183 | An empty token is skipped: a separator right after `.` or `[` changes nothing. For example, `p..q` and `p.[q` resolve like `p.q`, and `p[.q` like `p[q`. |
| PathResolver.LocateTrailingSep | flight/Config.cpp:179-183 | A separator after a separator changes nothing. For example, `a[2].` resolves like `a[2]`. |
| PathResolver.LocateRoot | flight/Config.cpp:194-195 | The first token of a path is looked up among the globals. |
| PathResolver.LocateDotted | flight/Config.cpp:176-217 | A dotted path of plain names resolves to the chain of field lookups from the first name's global. It stops at the first nil. |
| PathResolver.TokenizeJoin | flight/Config.cpp:176-210 | Tokenizing the text of a well-formed segment list gives back the segments. |
| PathResolver.RunFirstIsGlobal | flight/Config.cpp:194-198 | When the first token is a real one, the stale stack value does not matter, and a found value needs a bound global first token. |
| Accessors.String | flight/Config.cpp:79-91 | Not found gives the default. A string gives its text up to its first NUL, as the `std::string` built from the `const char*` does, and the whole string when it has no NUL. A number gives decimal text that parses back to the number. |
| Accessors.Integer | flight/Config.cpp:94-106 | Not found gives the default. Otherwise the result is the integer coercion of the value, wrapped to a 32-bit `int`, and unchanged when it fits. |
| Accessors.Number | flight/Config.cpp:109-121 | Not found gives the default. A found number gives its value. |
| Accessors.NumberAgreesWithInteger | flight/Config.cpp:94-121 | `number` and `integer` read a found value alike: when its integer coercion fits an `int`, the two results are equal. |
| Accessors.Boolean | flight/Config.cpp:124-136 | Not found gives the default. A found value reads false exactly when it is `false`. |
| Accessors.IntegerArray | flight/Config.cpp:139-160 | Not found, or found but not a table, gives an empty sequence. For a table, the length is a border of the table, and element i is the `int` coercion of key i+1. |
| Accessors.ReadSlots | flight/Config.cpp:147-156 | The loop reads exactly the border's number of slots from a table, each slot i+1 giving element i after `int` coercion. A boolean or the empty string gives nothing, since its length is 0. |
| Accessors.ArrayLength | flight/Config.cpp:224-247 | Gives -1 when not found and -1 for a found non-table. For a table, gives the border when it is positive, otherwise the number of entries. |
| Accessors.CountEntries | flight/Config.cpp:238-243 | The `lua_next` loop counts exactly the entries whose value is not nil. |
| Accessors.ArrayConstructorReadsBack | flight/Config.cpp:147-156 | A table built from `{x1, ..., xn}` of `int`s reads back as the same n integers. For n > 0, `ArrayLength` gives n. |
| Accessors.IntegerDotted | flight/Config.cpp:94-106 | `integer` on a dotted path is the default when a name on the way is missing, and otherwise the coercion of the nested field. |
| Accessors.LocateIndexField | flight/Config.cpp:176-217 | `a[i].f` is field `f` of element `i` of global `a`. It is not found as soon as the global, the element or the field is nil. |
| Accessors.NestedFieldExample | flight/Config.cpp:163-221 | `a = {b = {c = 5}}` gives `integer("a.b.c", 0) == 5`. |
| Accessors.IndexedFieldExample | flight/Config.cpp:163-221 | `a = {{b = 1}, {b = 2}}` gives `integer("a[2].b", 0) == 2`. |
| Document.Border | flight/Config.cpp:148 | The length `lua_objlen` gives a table is a border: slots 1..n are present and slot n+1 is not. |
| Document.BorderUnique | flight/Config.cpp:148 | A table has exactly one n with slots 1..n present and slot n+1 absent, and `Border` is that n. |
| Document.ToBoolean | flight/Config.cpp:133 | `lua_toboolean` is false exactly for nil and `false`. |
| Document.ToLString | flight/Config.cpp:88 | `lua_tolstring` gives a string itself, and a number decimal text that reads back as that number. |
| Document.ToNumber | flight/Config.cpp:118 | `lua_tonumber` agrees with `lua_tointeger` on every value: the model's numbers and numeric strings are integral. |
| Document.ToInteger | flight/Config.cpp:103 | `lua_tointeger` gives a number itself and decimal integer text its value. Other text, nil, booleans and tables give 0. |
| Document.ObjLen | flight/Config.cpp:148 | `lua_objlen` gives a table a border, a string its length, and nil or a boolean 0. |
| Document.Global | flight/Config.cpp:195 | A global lookup gives the bound value, and nil for an unbound name. |
| Document.Field | flight/Config.cpp:213 | A field lookup on a table gives the entry under that string key, nil when there is none. A non-table has no fields. |
| Document.RawGetI | flight/Config.cpp:189 | An integer-key lookup on a table gives the entry under that integer key, nil when there is none. A non-table has no entries. |
| Document.ToInt32 | flight/Config.cpp:103 | Storing a `lua_Integer` in an `int` gives a 32-bit value congruent to it modulo 2^32. |
| Document.ToIntegerOfDecimal | flight/Config.cpp:103 | `lua_tointeger` of a string value holding the decimal text of an integer gives that integer back (also at line 152). |
| Text.LTrim | flight/Config.cpp:324-328 | `ltrim` removes exactly the leading whitespace. What remains is a suffix starting with a non-space, or is empty. |
| Text.RTrim | flight/Config.cpp:331-335 | `rtrim` removes exactly the trailing whitespace. What remains is a prefix ending with a non-space, or is empty. |
| Text.Trim | flight/Config.cpp:338-341 | `trim` leaves no whitespace at either end, and is empty exactly when the text is all whitespace. |
| Text.TrimPadded | flight/Config.cpp:338-341 | Trimming trimmed text padded with whitespace on both sides gives the text back. |
| Text.TrimOfTrimmed | flight/Config.cpp:338-341 | `trim` is idempotent on trimmed text. |
| Text.TrimKeepsOut | flight/Config.cpp:338-341 | Trimming adds no character. |
| Text.Find | flight/Config.cpp:397 | `find` returns the first occurrence, or the length standing for `npos`. |
| Text.Atoi | flight/Config.cpp:188-189 | On the digit-led tokens line 188 passes it, `atoi` reads the leading digits; all-digit text gives its decimal value. |
| Text.AtoiOfNatToString | flight/Config.cpp:189 | `atoi` reads a number's decimal text back as the number, whatever non-digit text follows, such as a `]` or a quote. |
| Text.IntToString | flight/Config.cpp:491 | `std::to_string` of an `int` is non-empty trimmed text without `=` or newline. |
| Text.ParseIntToString | flight/Config.cpp:491-492 | Lua's decimal coercion reads `std::to_string(v)` back as v. |
| Settings.SplitLines | flight/Config.cpp:396 | The `getline` loop yields lines without newlines, and none for an empty file. |
| Settings.SplitJoin | flight/Config.cpp:396 | Newline-terminated lines are read back as the same lines. |
| Settings.JoinSplit | flight/Config.cpp:396 | Splitting text into lines and joining them back gives the text with every line newline-terminated. A text that ends in a newline comes back unchanged; otherwise one newline is added. |
| Settings.ParseLine | flight/Config.cpp:397-400 | Key and value are trimmed, and the key holds no `=`. A line without `=` gives key and value both equal to the trimmed line. |
| Settings.ParseAtFirstEquals | flight/Config.cpp:397-400 | A line splits at its first `=`: the key is the trimmed text before it, the value the trimmed text after it. |
| Settings.Assign | flight/Config.cpp:401 | After the assignments, every old key and every assigned key is present. An assigned key holds the value of its last assignment. Every other key keeps its value. |
| Settings.DuplicateLastWins | flight/Config.cpp:401 | Of two consecutive lines with the same key, the first has no effect. |
| Settings.Load | flight/Config.cpp:391-404 | Loading a file never removes a setting. |
| Settings.Save | flight/Config.cpp:516-519 | `Save` writes nothing exactly when there are no settings. |
| Settings.ParseFormatted | flight/Config.cpp:517 | A `key = value` line written by `Save` parses back to its key and value, when both are clean. |
| Settings.LoadFormatted | flight/Config.cpp:517 | Loading the one line `Save` writes for a clean setting (`FormatLine`: key, ` = `, value and a newline) binds its key to its value and changes nothing else. |
| Settings.AssignEnumerated | flight/Config.cpp:401 | Assigning all entries of an overlay, in any order, puts the overlay on top of the existing one. |
| Settings.SaveLoadRoundTrip | flight/Config.cpp:510-523 | For keys without `=` or newline and trimmed keys and values without newline, loading what `Save` wrote over an overlay gives that overlay with the saved settings on top. |
| Settings.ReloadSaved | flight/Config.cpp:510-523 | Loading what `Save` wrote into an empty overlay gives the saved overlay. |
| Settings.SaveOverlay | flight/Config.cpp:510-523 | `Save` writes each setting of the overlay exactly once, with its value. For a clean overlay, loading the text over any overlay puts the saved settings on top of it. |
| Settings.SetBoolean | flight/Config.cpp:482-486 | Only `name` changes, and it becomes `"true"` or `"false"`. |
| Settings.SetInteger | flight/Config.cpp:489-493 | Only `name` changes, and it becomes clean decimal text that parses back to the number. |
| Settings.SetString | flight/Config.cpp:503-507 | Only `name` changes, and it holds the string verbatim. |
| Settings.SetThenReload | flight/Config.cpp:482-523 | After a setter on a clean overlay, `Save` and a fresh load give back exactly the updated overlay. |
| Settings.SetIntegerThenReload | flight/Config.cpp:489-523 | A number stored by `setInteger` reads back as that number after `Save` and a fresh load. |
| Settings.ReloadOverlay | flight/Config.cpp:371-405 | The overlay is untouched when the main script fails, when there is no settings file name, or when the file cannot be opened. Otherwise the file's lines are loaded over it. |
| Calibration.Apply | flight/Config.cpp:421-479 | A sensor's name is its table key cut at the first NUL (`Names`). Exactly the configured sensors that the registry holds get a `setAxisSwap` call. Gyroscopes come first, then accelerometers, then magnetometers. Each swap is read from that sensor's `axis_swap` entries. No sensor gets two calls when each table's names are distinct, in particular when no key holds a NUL. |
| Calibration.AxisSwap | flight/Config.cpp:452-456 | The swap tuple holds the x, y and z entries read with `integer`, and a fourth slot of 0. |
| Calibration.AxisSwapEntry | flight/Config.cpp:453-455 | For a plain sensor name, each swap entry is the coerced `axis_swap` field of the sensor's table, or the default when something on the way is missing. |
| Calibration.Registered | flight/Config.cpp:449-452 | A listed sensor gets a call exactly when the registry holds it, and distinct names stay distinct. |
| Calibration.NulFreeNames | flight/Config.cpp:430-444 | Keys without NUL are their own names, and the names of a `lua_next` listing are then distinct. |
| Calibration.NulFreeDistinctNames | flight/Config.cpp:430-444 | When no key of the three sensor tables holds a NUL, each table's names are distinct, so `Apply` and `Targets` repeat no sensor. |
| Calibration.NulKeysCollide | flight/Config.cpp:430-444 | The keys `a\0b` and `a\0c` both become the name `a`. |
| Calibration.Targets | flight/Config.cpp:421-479 | The sensors called are registered and configured (by a key whose NUL-cut text is their name), cover every such sensor, and come in kind order. They never repeat when each table's names are distinct, in particular when no key holds a NUL. |
| Calibration.UserSensorRegistrations | flight/Config.cpp:373-417 | When the main script ran, every entry of `user_sensors` is registered under its key cut at the first NUL, with the path `user_sensors.<name>`; a NUL-free key is its own name. When it failed, `Reload` returns first and nothing is registered. |
| Calibration.UserSensorPathResolves | flight/Config.cpp:416 | The path a user sensor is registered under resolves to the parameters stored for it. |

## Findings

| source | as written | input that shows it | evidently intended | confidence | as-written member | corrected member |
|---|---|---|---|---|---|---|
| flight/Config.cpp:179-198 | An empty token still increments `k`. A path that starts with `.`, `[` or `]` therefore looks its first real token up with `lua_getfield(L, -1, …)`, that is, in whatever value an earlier call left on the Lua stack. | Path `.a`, no globals, `{a = 1}` left on the stack: found as 1. | The result depends only on the path and the globals. The model reports such a path as not found. | not executed | PathResolver.StaleStackCounterexample | PathResolver.Locate |

## Left out

- The Lua interpreter is left out: `luaL_dostring`, `luaL_loadfile`, `lua_pcall`, the helper functions and default tables `Reload` defines, and `Execute`. A script's effect is the `Globals` value it leaves. `ReloadOverlay` takes whether the main script ran as a flag.
- `Reload` also runs the settings file as a Lua chunk. That is Lua evaluation. `ReloadOverlay` models only the line parser that fills the overlay from the same file.
- File I/O is left out: `ReadFile`, `WriteFile`, and the streams of `Reload` and `Save`. A file is its contents, and a file that cannot be opened is `None`.
- The document half of the setters (the `name=value` chunk they run) is Lua evaluation. Note that `setString` emits its value unquoted.
- `setNumber` is left out, because `std::to_string(float)` formatting is not modelled.
- Accessors.Number: the result is the exact value of the number, without the rounding to `float`.
- Accessors.String: it is only defined for strings, and for numbers below 10^14 in magnitude. Larger numbers would be printed in `%.14g` exponent form. Any other value gives a null pointer, and building a `std::string` from it is undefined behaviour (libstdc++ throws `std::logic_error`).
- Accessors.IntegerArray, Accessors.ReadSlots: require the found value to be a table, a boolean or the empty string. For other strings and for numbers, `lua_objlen` is positive, and `lua_rawgeti` is then applied to a non-table, which Lua does not define.
- Document.ToInteger: only decimal integer text (optional whitespace, optional sign, digits) is coerced. Hexadecimal, fractional and exponent text reads as 0 here, where Lua would convert it.
- Numbers are integral in the model. Lua's doubles, with their truncation in `lua_tointeger` and their range limits, are not modelled.
- Functions, userdata and metatables are left out. A field of a non-table reads as nil, where Lua would raise an error or consult a metatable.
- Document.Border: for a table with holes, Lua may return any n where slot n is present and slot n+1 is absent. The model returns the n before the first hole.
- The `tmp[128]` token buffer is unbounded here. A token of 128 characters or more overflows it in the source.
- `atoi` is unbounded here. Overflow of an index token is not modelled.
- Text.Atoi: only the digit-led tokens of `LocateValue` are modelled. On other text it gives 0, where C's `atoi` would skip leading whitespace and read a sign; the source never passes such text.
- Accessors.ArrayLength: the `size_t` to `int` conversion of the border is not modelled. Tables with 2^31 or more array slots are out of scope.
- Lua stack accounting is left out. `LocateValue` never pops, so only the value on top of the stack matters. `LocateAsWritten` takes that value as a parameter.
- `DumpVariable` is left out, because it only prints debug output. The constructor and destructor are left out too.
- The order of `mSettings` is a parameter. Its container type is not part of this model, so `Save` takes the entries in any order that lists each setting once.
- The order of a `lua_next` traversal is a parameter: a list of each table's keys.
- The sensor registry is a parameter: the set of sensors `Sensor::gyroscope`, `Sensor::accelerometer` and `Sensor::magnetometer` find. What `setAxisSwap` and `Sensor::RegisterDevice` do is not modelled.
- Calibration.Apply requires the three sensor tables to be tables with string keys only. With a number key, the in-place `lua_tolstring` on the key breaks the `lua_next` traversal.
- Calibration.Apply, Calibration.Targets: "no sensor gets two calls" holds only when each table's NUL-cut names are distinct. Two keys that agree up to a NUL, such as `a\0b` and `a\0c`, give the sensor `a` two calls, as the source does.
- Calibration.UserSensorRegistrations requires `user_sensors` to be a table with string keys only. `Reload` defines it so, but a script that rebinds it to a non-table makes the `lua_next` traversal fail.
- The default of `integer` that `Apply` relies on is declared with `integer`, outside this model. It is a parameter.
- The debug and error messages are left out.

=== FILE: accessors.dfy ===
/** The typed readers of `Config`: `string`, `integer`, `number`,
    `boolean`, `integerArray` and `ArrayLength`. Each resolves its path
    with `Locate` and falls back to the caller's default (or an empty or
    -1 result) when the path is not found. */
module Accessors {
  import opened Wrappers
  import opened Document
  import opened PathResolver
  import Text

  /** `string` can only read strings and numbers: `lua_tolstring` gives a
      null pointer for anything else, and building a `std::string` from a
      null pointer is undefined behaviour (libstdc++ throws
      `std::logic_error`). */
  predicate StringReadable(o: Option<Value>) {
    o.Some? ==> HasLString(o.value)
  }

  /** `Config::string(name, def)`. The result is a `std::string` built from
      the `const char*` of `lua_tolstring`, so a Lua string is cut at its
      first NUL. */
  function String(g: Globals, path: string, def: string): (r: string)
    requires StringReadable(Locate(g, path))
    ensures Locate(g, path).None? ==> r == def
    ensures Locate(g, path).Some? && Locate(g, path).value.Str? ==> r == CString(Locate(g, path).value.s)
    ensures Locate(g, path).Some? && Locate(g, path).value.Str? && NoNul(Locate(g, path).value.s) ==> r == Locate(g, path).value.s
    ensures Locate(g, path).Some? && Locate(g, path).value.Num? ==> Text.ParseDecimal(r) == Some(Locate(g, path).value.n)
  {
    match Locate(g, path)
    case None => def
    case Some(v) =>
      var s := ToLString(v);
      assert NoNul(s) ==> CString(s) == s by {
        if NoNul(s) {
          CStringPlain(s);
        }
      }
      CString(s)
  }

  /** `Config::integer(name, def)`: the found value's integer coercion,
      stored in a C `int`. */
  function Integer(g: Globals, path: string, def: int): (r: int)
    ensures var o := Locate(g, path); o.None? ==> r == def
    ensures var o := Locate(g, path); o.Some? ==> InInt32(r) && (r - ToInteger(o.value)) % 0x1_0000_0000 == 0
    ensures var o := Locate(g, path); o.Some? && InInt32(ToInteger(o.value)) ==> r == ToInteger(o.value)
  {
    var o := Locate(g, path);
    if o.None? then def else ToInt32(ToInteger(o.value))
  }

  /** `Config::number(name, def)`, with the float conversion left out. */
  function Number(g: Globals, path: string, def: real): (r: real)
    ensures Locate(g, path).None? ==> r == def
    ensures Locate(g, path).Some? && Locate(g, path).value.Num? ==> r == Locate(g, path).value.n as real
  {
    match Locate(g, path)
    case None => def
    case Some(v) => ToNumber(v)
  }

  /** `number` and `integer` read a found value the same way: when its
      integer coercion fits an `int`, the two results are equal. */
  lemma NumberAgreesWithInteger(g: Globals, path: string, def: real, idef: int)
    requires Locate(g, path).Some? && InInt32(ToInteger(Locate(g, path).value))
    ensures Number(g, path, def) == Integer(g, path, idef) as real
  {
  }

  /** `Config::boolean(name, def)`: a found value reads false exactly when
      it is `false`. */
  function Boolean(g: Globals, path: string, def: bool): (r: bool)
    ensures Locate(g, path).None? ==> r == def
    ensures Locate(g, path).Some? ==> (!r <==> Locate(g, path).value == Bool(false))
  {
    match Locate(g, path)
    case None => def
    case Some(v) => ToBoolean(v)
  }

  /** `integerArray` indexes the found value with `lua_rawgeti` once for each
      unit of its `lua_objlen`; that is only defined on tables, so the
      value must be a table or have length 0. */
  predicate ArrayReadable(o: Option<Value>) {
    o.Some? ==> (o.value.Table? || o.value.Bool? || o.value == Str(""))
  }

  /** `Config::integerArray(name)`: the integer coercion of slots 1..n of the
      table, n being its border. */
  method IntegerArray(g: Globals, path: string) returns (r: seq<int>)
    requires ArrayReadable(Locate(g, path))
    ensures Locate(g, path).None? ==> r == []
    ensures Locate(g, path).Some? && !Locate(g, path).value.Table? ==> r == []
    ensures Locate(g, path).Some? && Locate(g, path).value.Table? ==>
      var t := Locate(g, path).value.t;
      && IsBorder(t, |r|)
      && forall i | 0 <= i < |r| :: r[i] == ToInt32(ToInteger(Get(t, IKey(i + 1))))
  {
    var loc := Locate(g, path);
    if loc.None? {
      return [];
    }
    r := ReadSlots(loc.value);
  }

  /** The loop of `integerArray` on the found value: `lua_rawgeti` of slots
      1..n, n being its `lua_objlen`. */
  method ReadSlots(v: Value) returns (r: seq<int>)
    requires v.Table? || v.Bool? || v == Str("")
    ensures !v.Table? ==> r == []
    ensures v.Table? ==> IsBorder(v.t, |r|) && forall i | 0 <= i < |r| :: r[i] == ToInt32(ToInteger(Get(v.t, IKey(i + 1))))
  {
    var len := ObjLen(v);
    r := [];
    var i := 1;
    while i <= len
      invariant 1 <= i <= len + 1
      invariant |r| == i - 1
      invariant forall j | 0 <= j < |r| :: r[j] == ToInt32(ToInteger(RawGetI(v, j + 1)))
    {
      r := r + [ToInt32(ToInteger(RawGetI(v, i)))];
      i := i + 1;
    }
  }

  /** `Config::ArrayLength(name)`: -1 unless the path names a table; the
      table's border when positive, otherwise the number of entries a
      `lua_next` loop visits. */
  method ArrayLength(g: Globals, path: string) returns (r: int)
    ensures Locate(g, path).None? ==> r == -1
    ensures Locate(g, path).Some? && !Locate(g, path).value.Table? ==> r == -1
    ensures Locate(g, path).Some? && Locate(g, path).value.Table? ==>
      var t := Locate(g, path).value.t;
      r == if Border(t) > 0 then Border(t) else EntryCount(t)
  {
    var loc := Locate(g, path);
    if loc.None? {
      return -1;
    }
    r := -1;
    if loc.value.Table? {
      var t := loc.value.t;
      r := 0;
      var len := ObjLen(loc.value);
      if len > 0 {
        r := len;
      } else {
        r := CountEntries(t);
      }
    }
  }

  /** The `lua_next` loop of `ArrayLength`: one step per entry whose value is
      not nil. */
  method CountEntries(t: map<Key, Value>) returns (r: nat)
    ensures r == EntryCount(t)
  {
    r := 0;
    var unvisited := t.Keys;
    while unvisited != {}
      invariant unvisited <= t.Keys
      invariant r == |LiveKeys(t) - unvisited|
      decreases |unvisited|
    {
      var k :| k in unvisited;
      VisitKey(t, unvisited, k);
      if t[k] != Nil {
        r := r + 1;
      }
      unvisited := unvisited - {k};
    }
    assert LiveKeys(t) - unvisited == LiveKeys(t);
  }

  /** Visiting key `k` adds it to the live keys seen so far exactly when its
      value is not nil. */
  lemma VisitKey(t: map<Key, Value>, unvisited: set<Key>, k: Key)
    requires k in unvisited && k in t
    ensures t[k] != Nil ==> |LiveKeys(t) - (unvisited - {k})| == |LiveKeys(t) - unvisited| + 1
    ensures t[k] == Nil ==> LiveKeys(t) - (unvisited - {k}) == LiveKeys(t) - unvisited
  {
    var before := LiveKeys(t) - unvisited;
    if t[k] != Nil {
      assert LiveKeys(t) - (unvisited - {k}) == before + {k};
    }
  }

  /** The array a Lua constructor `{ x1, ..., xn }` of `int` values builds
      reads back as the same integers, and its length is n. */
  method ArrayConstructorReadsBack(g: Globals, path: string, xs: seq<int>) returns (items: seq<int>, len: int)
    requires Locate(g, path) == Some(Table(ArrayOf(xs)))
    requires forall i | 0 <= i < |xs| :: InInt32(xs[i])
    ensures items == xs
    ensures |xs| > 0 ==> len == |xs|
  {
    BorderOfArray(xs);
    BorderUnique(ArrayOf(xs), |xs|);
    items := IntegerArray(g, path);
    BorderUnique(ArrayOf(xs), |items|);
    len := ArrayLength(g, path);
  }

  /** An integer read through a dotted path of plain names is the integer
      coercion of the nested field, or the default when a name is missing
      on the way. */
  lemma IntegerDotted(g: Globals, ts: seq<string>, def: int)
    requires |ts| >= 1 && AllPlain(ts)
    ensures Global(g, ts[0]) == Nil ==> Integer(g, Dotted(ts), def) == def
    ensures Global(g, ts[0]) != Nil ==>
      var o := FieldChain(Global(g, ts[0]), ts[1..]);
      Integer(g, Dotted(ts), def) == if o.None? then def else ToInt32(ToInteger(o.value))
  {
    LocateDotted(g, ts);
  }

  /** Proof step of `NestedFieldExample`: the literal path is the dotted
      form of its three names. */
  lemma DottedABC()
    ensures Dotted(["a", "b", "c"]) == "a.b.c"
  {
    var ts := ["a", "b", "c"];
    assert ts[1..][1..] == ["c"];
    assert Dotted(ts[1..]) == "b" + "." + "c";
  }

  /** `a = { b = { c = 5 } }` gives `integer("a.b.c", 0) == 5`. */
  lemma NestedFieldExample(g: Globals)
    requires Global(g, "a") == Table(map[SKey("b") := Table(map[SKey("c") := Num(5)])])
    ensures Integer(g, "a.b.c", 0) == 5
  {
    var ts := ["a", "b", "c"];
    assert AllPlain(ts) by {
      assert PlainToken("a") && PlainToken("b") && PlainToken("c");
    }
    DottedABC();
    IntegerDotted(g, ts, 0);
    assert ts[1..] == ["b", "c"];
    NestedChain(Global(g, "a"));
  }

  /** Proof step of `NestedFieldExample`: the field chain on the example
      table. */
  lemma NestedChain(a: Value)
    requires a == Table(map[SKey("b") := Table(map[SKey("c") := Num(5)])])
    ensures FieldChain(a, ["b", "c"]) == Some(Num(5))
  {
    var b := Table(map[SKey("c") := Num(5)]);
    assert Field(a, "b") == b;
    assert ["b", "c"][1..] == ["c"];
    assert Field(b, "c") == Num(5);
    assert ["c"][1..] == [];
  }

  /** `a = { { b = 1 }, { b = 2 } }` gives `integer("a[2].b", 0) == 2`. */
  lemma IndexedFieldExample(g: Globals)
    requires Global(g, "a") == Table(map[IKey(1) := Table(map[SKey("b") := Num(1)]), IKey(2) := Table(map[SKey("b") := Num(2)])])
    ensures Integer(g, "a[2].b", 0) == 2
  {
    IndexedPathPieces();
    LocateIndexField(g, "a", "2", "b");
  }

  /** Proof step of `IndexedFieldExample`: facts about its literal pieces,
      kept apart so that the main proof sees no string literal. */
  lemma IndexedPathPieces()
    ensures PlainToken("a") && PlainToken("2") && PlainToken("b")
    ensures "a" + "[" + "2" + "]." + "b" == "a[2].b"
    ensures Text.Atoi("2") == 2
  {
    assert Text.LeadingDigits("2") == "2";
  }

  /** `a[i].f` is field `f` of element `i` of global `a`. */
  lemma LocateIndexField(g: Globals, a: string, i: string, f: string)
    requires PlainToken(a) && PlainToken(i) && PlainToken(f)
    ensures Locate(g, a + "[" + i + "]." + f) ==
      var v := Global(g, a);
      if v == Nil then None
      else var w := Bracket(v, i); if w == Nil then None else Lift(Field(w, f))
  {
    var v := Global(g, a);
    var p := a + "[" + i + "]";
    assert a + "[" + i + "]." + f == p + "." + f;
    LocateRoot(g, a, '[');
    assert a + ['['] == a + "[";
    assert NoNul(p) && p[|a|] == '[' && p[|p| - 1] == ']';
    if v == Nil {
      LocateStopsAtNil(g, a, '[', i + "]." + f);
      assert a + ['['] + (i + "]." + f) == p + "." + f;
    } else {
      LocateIndex(g, a, i, v);
      var w := Bracket(v, i);
      if w == Nil {
        LocateTrailingSep(g, p, '.');
        LocateStopsAtNil(g, p, '.', f);
        assert p + ['.'] + f == p + "." + f;
      } else {
        FieldAfterBracket(g, p, w, f);
      }
    }
  }

  /** A field after an index: `p[i].t` is field `t` of what `p[i]` finds. */
  lemma FieldAfterBracket(g: Globals, p: string, e: Value, t: string)
    requires NoNul(p) && !IsBare(p) && IsSep(p[|p| - 1]) && PlainToken(t)
    requires Locate(g, p) == Some(e)
    ensures Locate(g, p + "." + t) == Lift(Field(e, t))
  {
    LocateTrailingSep(g, p, '.');
    LocateExtendField(g, p, '.', t, e);
    assert p + "." + t == p + ['.'] + t;
  }
}

=== FILE: calibration.dfy ===
/** The wiring from configuration to sensors: `Config::Apply` sets the axis
    swap of every configured gyroscope, accelerometer and magnetometer
    that the sensor registry knows, and `Reload` registers every entry of
    `user_sensors` under its path. The registry is a parameter: the set of
    sensors it holds. The order in which a `lua_next` loop visits a table
    is not fixed by Lua, so the names of each table come as a parameter
    that lists its keys. */
module Calibration {
  import opened Wrappers
  import opened Document
  import opened PathResolver
  import opened Accessors

  datatype Kind = Gyroscope | Accelerometer | Magnetometer

  /** The global table listing the configured sensors of each kind. */
  function TableName(kind: Kind): string {
    match kind
    case Gyroscope => "gyroscopes"
    case Accelerometer => "accelerometers"
    case Magnetometer => "magnetometers"
  }

  /** A sensor as the registry knows it: its kind and its name. */
  datatype Sensor = Sensor(kind: Kind, name: string)

  /** One `setAxisSwap` call on a registered sensor. */
  datatype SwapCall = SwapCall(kind: Kind, name: string, swap: seq<int>)

  /** `names` is the order in which a `lua_next` loop visits the keys of the
      table `v`: each key with a non-nil value once. Keys must be strings:
      the loop converts each key in place with `lua_tolstring`, which breaks
      the traversal for a number key. */
  predicate Lists(v: Value, names: seq<string>) {
    && v.Table?
    && (forall k | k in LiveKeys(v.t) :: k.SKey?)
    && (forall i | 0 <= i < |names| :: SKey(names[i]) in LiveKeys(v.t))
    && (forall k | k in LiveKeys(v.t) :: exists i | 0 <= i < |names| :: SKey(names[i]) == k)
    && (forall i, j | 0 <= i < j < |names| :: names[i] != names[j])
  }

  /** The `std::string` each listed key becomes: `emplace_back` and the
      `std::string key` of `Reload` build it from the `const char*` of
      `lua_tolstring`, so a key is cut at its first NUL. */
  function Names(keys: seq<string>): (ns: seq<string>)
    ensures |ns| == |keys|
    ensures forall i | 0 <= i < |keys| :: ns[i] == CString(keys[i])
  {
    seq(|keys|, i requires 0 <= i < |keys| => CString(keys[i]))
  }

  /** The names the string keys of a table with non-nil values become. */
  function KeyNames(t: map<Key, Value>): set<string> {
    set k | k in LiveKeys(t) && k.SKey? :: CString(k.s)
  }

  predicate NulFree(keys: seq<string>) {
    forall i | 0 <= i < |keys| :: NoNul(keys[i])
  }

  /** NUL-free keys are their own names, and the names of a `lua_next`
      listing are then distinct. */
  lemma NulFreeNames(v: Value, keys: seq<string>)
    requires Lists(v, keys) && NulFree(keys)
    ensures Names(keys) == keys
    ensures Distinct(Names(keys))
  {
    forall i | 0 <= i < |keys| ensures Names(keys)[i] == keys[i] {
      CStringPlain(keys[i]);
    }
  }

  /** Each sensor table's keys become distinct names. */
  predicate DistinctNames(gyros: seq<string>, accels: seq<string>, magns: seq<string>) {
    Distinct(Names(gyros)) && Distinct(Names(accels)) && Distinct(Names(magns))
  }

  /** Without NUL in any key, the names of the three sensor tables are
      distinct, so `Apply` calls no sensor twice. */
  lemma NulFreeDistinctNames(g: Globals, gyros: seq<string>, accels: seq<string>, magns: seq<string>)
    requires Lists(Global(g, "gyroscopes"), gyros)
    requires Lists(Global(g, "accelerometers"), accels)
    requires Lists(Global(g, "magnetometers"), magns)
    requires NulFree(gyros) && NulFree(accels) && NulFree(magns)
    ensures DistinctNames(gyros, accels, magns)
  {
    NulFreeNames(Global(g, "gyroscopes"), gyros);
    NulFreeNames(Global(g, "accelerometers"), accels);
    NulFreeNames(Global(g, "magnetometers"), magns);
  }

  /** Two keys that agree up to a NUL become the same name: `a\0b` and
      `a\0c` both name the sensor `a`. */
  lemma NulKeysCollide()
    ensures Names(["a\0b", "a\0c"]) == ["a", "a"]
  {
    CutAtNul("a", "b");
    CutAtNul("a", "c");
    assert "a\0b" == "a" + ['\0'] + "b";
    assert "a\0c" == "a" + ['\0'] + "c";
  }

  /** Proof step of `NulKeysCollide`. */
  lemma CutAtNul(a: string, b: string)
    requires NoNul(a)
    ensures CString(a + ['\0'] + b) == a
  {
    CStringAppend(a, ['\0'] + b);
    assert Text.Find(['\0'] + b, '\0') == 0;
    assert a + ['\0'] + b == a + (['\0'] + b);
  }

  /** The path of one axis entry of a sensor's configuration. */
  function AxisPath(kind: Kind, name: string, axis: string): string {
    TableName(kind) + "." + name + ".axis_swap." + axis
  }

  /** The swap tuple of one sensor: the configured x, y and z entries, and
      a fourth slot that stays 0. */
  function AxisSwap(g: Globals, kind: Kind, name: string, def: int): (swap: seq<int>)
    ensures |swap| == 4 && swap[3] == 0
    ensures swap[0] == Integer(g, AxisPath(kind, name, "x"), def)
    ensures swap[1] == Integer(g, AxisPath(kind, name, "y"), def)
    ensures swap[2] == Integer(g, AxisPath(kind, name, "z"), def)
  {
    [Integer(g, AxisPath(kind, name, "x"), def),
     Integer(g, AxisPath(kind, name, "y"), def),
     Integer(g, AxisPath(kind, name, "z"), def),
     0]
  }

  /** The table of `kind` has a non-nil entry whose key, cut at its first
      NUL, is `name`. */
  predicate Configured(g: Globals, kind: Kind, name: string) {
    var v := Global(g, TableName(kind));
    v.Table? && name in KeyNames(v.t)
  }

  predicate Distinct(names: seq<string>) {
    forall i, j | 0 <= i < j < |names| :: names[i] != names[j]
  }

  /** The names of one kind's loop that get a call: the listed names the
      registry holds, in list order. A name the registry lacks is skipped
      (`Sensor::gyroscope` and its siblings return null for it). */
  function Registered(kind: Kind, names: seq<string>, registry: set<Sensor>): (ts: seq<string>)
    ensures forall n | n in ts :: n in names && Sensor(kind, n) in registry
    ensures forall n | n in names && Sensor(kind, n) in registry :: n in ts
    ensures Distinct(names) ==> Distinct(ts)
    decreases |names|
  {
    if names == [] then []
    else
      var rest := Registered(kind, names[1..], registry);
      if Sensor(kind, names[0]) in registry then
        var ts := [names[0]] + rest;
        assert Distinct(names) ==> Distinct(ts) by {
          if Distinct(names) {
            assert names[0] !in names[1..] by {
              forall i | 0 <= i < |names[1..]| ensures names[1..][i] != names[0] {
                assert names[1..][i] == names[i + 1];
              }
            }
            forall i, j | 0 <= i < j < |ts| ensures ts[i] != ts[j] {
              assert ts[j] == rest[j - 1] && ts[j] in rest;
              if i > 0 {
                assert ts[i] == rest[i - 1];
              }
            }
          }
        }
        ts
      else rest
  }

  /** The sensors `ts` of one kind. */
  function Sensors(kind: Kind, ts: seq<string>): (ss: seq<Sensor>)
    ensures |ss| == |ts|
    ensures forall i | 0 <= i < |ts| :: ss[i] == Sensor(kind, ts[i])
  {
    seq(|ts|, i requires 0 <= i < |ts| => Sensor(kind, ts[i]))
  }

  /** Gyroscopes are handled first, then accelerometers, then magnetometers. */
  function Rank(kind: Kind): nat {
    match kind
    case Gyroscope => 0
    case Accelerometer => 1
    case Magnetometer => 2
  }

  // The facts about one kind's block of sensors that `Apply` collects.

  predicate OfKind(kind: Kind, ss: seq<Sensor>) {
    forall i | 0 <= i < |ss| :: ss[i].kind == kind
  }

  predicate Eligible(g: Globals, registry: set<Sensor>, ss: seq<Sensor>) {
    forall i | 0 <= i < |ss| :: ss[i] in registry && Configured(g, ss[i].kind, ss[i].name)
  }

  predicate DistinctSensors(ss: seq<Sensor>) {
    forall i, j | 0 <= i < j < |ss| :: ss[i] != ss[j]
  }

  ghost predicate Covers(g: Globals, kind: Kind, registry: set<Sensor>, ss: seq<Sensor>) {
    forall n | Configured(g, kind, n) && Sensor(kind, n) in registry :: exists i | 0 <= i < |ss| :: ss[i] == Sensor(kind, n)
  }

  lemma BlockFacts(g: Globals, kind: Kind, names: seq<string>, registry: set<Sensor>)
    requires Lists(Global(g, TableName(kind)), names)
    ensures var ss := Sensors(kind, Registered(kind, Names(names), registry));
      OfKind(kind, ss) && Eligible(g, registry, ss) && Covers(g, kind, registry, ss)
  {
    var ts := Registered(kind, Names(names), registry);
    var ss := Sensors(kind, ts);
    BlockEligible(g, kind, names, registry, ts, ss);
    BlockCovers(g, kind, names, registry, ts, ss);
  }

  /** Distinct names give distinct sensors. */
  lemma BlockDistinct(kind: Kind, names: seq<string>, registry: set<Sensor>)
    requires Distinct(names)
    ensures DistinctSensors(Sensors(kind, Registered(kind, names, registry)))
  {
    assert Distinct(Registered(kind, names, registry));
  }

  lemma BlockEligible(g: Globals, kind: Kind, names: seq<string>, registry: set<Sensor>, ts: seq<string>, ss: seq<Sensor>)
    requires Lists(Global(g, TableName(kind)), names)
    requires forall n | n in ts :: n in Names(names) && Sensor(kind, n) in registry
    requires |ss| == |ts| && forall i | 0 <= i < |ts| :: ss[i] == Sensor(kind, ts[i])
    ensures Eligible(g, registry, ss)
  {
    var v := Global(g, TableName(kind));
    forall i | 0 <= i < |ss| ensures Configured(g, kind, ss[i].name) {
      assert ts[i] in ts;
      var k :| 0 <= k < |names| && Names(names)[k] == ts[i];
      assert SKey(names[k]) in LiveKeys(v.t);
      assert CString(SKey(names[k]).s) in KeyNames(v.t);
    }
  }

  lemma BlockCovers(g: Globals, kind: Kind, names: seq<string>, registry: set<Sensor>, ts: seq<string>, ss: seq<Sensor>)
    requires Lists(Global(g, TableName(kind)), names)
    requires forall n | n in Names(names) && Sensor(kind, n) in registry :: n in ts
    requires |ss| == |ts| && forall i | 0 <= i < |ts| :: ss[i] == Sensor(kind, ts[i])
    ensures Covers(g, kind, registry, ss)
  {
    var v := Global(g, TableName(kind));
    forall n | Configured(g, kind, n) && Sensor(kind, n) in registry ensures exists i | 0 <= i < |ss| :: ss[i] == Sensor(kind, n) {
      var key :| key in LiveKeys(v.t) && key.SKey? && CString(key.s) == n;
      var k :| 0 <= k < |names| && SKey(names[k]) == key;
      assert Names(names)[k] == n;
      assert n in Names(names);
      var i :| 0 <= i < |ts| && ts[i] == n;
      assert ss[i] == Sensor(kind, n);
    }
  }

  /** The sensors `Apply` calls `setAxisSwap` on, in call order. */
  function Targets(g: Globals, gyros: seq<string>, accels: seq<string>, magns: seq<string>, registry: set<Sensor>): (ss: seq<Sensor>)
    requires Lists(Global(g, "gyroscopes"), gyros)
    requires Lists(Global(g, "accelerometers"), accels)
    requires Lists(Global(g, "magnetometers"), magns)
    ensures Eligible(g, registry, ss)
    ensures forall kind, n | Configured(g, kind, n) && Sensor(kind, n) in registry :: exists i | 0 <= i < |ss| :: ss[i] == Sensor(kind, n)
    ensures forall i, j | 0 <= i < j < |ss| :: Rank(ss[i].kind) <= Rank(ss[j].kind)
    ensures DistinctNames(gyros, accels, magns) ==> DistinctSensors(ss)
  {
    var gs := Sensors(Gyroscope, Registered(Gyroscope, Names(gyros), registry));
    var as_ := Sensors(Accelerometer, Registered(Accelerometer, Names(accels), registry));
    var ms := Sensors(Magnetometer, Registered(Magnetometer, Names(magns), registry));
    BlockFacts(g, Gyroscope, gyros, registry);
    BlockFacts(g, Accelerometer, accels, registry);
    BlockFacts(g, Magnetometer, magns, registry);
    ConcatEligible(g, registry, gs, as_, ms);
    ConcatOrder(gs, as_, ms);
    ConcatCovers(g, registry, gs, as_, ms);
    assert DistinctNames(gyros, accels, magns) ==> DistinctSensors(gs + as_ + ms) by {
      if DistinctNames(gyros, accels, magns) {
        BlockDistinct(Gyroscope, Names(gyros), registry);
        BlockDistinct(Accelerometer, Names(accels), registry);
        BlockDistinct(Magnetometer, Names(magns), registry);
        ConcatDistinct(gs, as_, ms);
      }
    }
    gs + as_ + ms
  }

  /** `Config::Apply`: one `setAxisSwap` call per configured sensor that the
      registry holds, and none for any other sensor; gyroscopes first, then
      accelerometers, then magnetometers, each kind in the order its table
      lists the sensors. `def` is the default of `integer`, which is
      declared outside this model. */
  function Apply(g: Globals, gyros: seq<string>, accels: seq<string>, magns: seq<string>, registry: set<Sensor>, def: int): (calls: seq<SwapCall>)
    requires Lists(Global(g, "gyroscopes"), gyros)
    requires Lists(Global(g, "accelerometers"), accels)
    requires Lists(Global(g, "magnetometers"), magns)
    ensures forall i | 0 <= i < |calls| :: Sensor(calls[i].kind, calls[i].name) in registry && Configured(g, calls[i].kind, calls[i].name)
    ensures forall kind, n | Configured(g, kind, n) && Sensor(kind, n) in registry :: exists i | 0 <= i < |calls| :: calls[i].kind == kind && calls[i].name == n
    ensures forall i, j | 0 <= i < j < |calls| :: Rank(calls[i].kind) <= Rank(calls[j].kind)
    ensures DistinctNames(gyros, accels, magns) ==> NoRepeats(calls)
    ensures forall i | 0 <= i < |calls| :: calls[i].swap == AxisSwap(g, calls[i].kind, calls[i].name, def)
  {
    var ss := Targets(g, gyros, accels, magns, registry);
    var calls := CallsFor(g, ss, def);
    CallsFollowTargets(g, registry, ss, calls);
    assert DistinctNames(gyros, accels, magns) ==> NoRepeats(calls) by {
      if DistinctNames(gyros, accels, magns) {
        CallsNoRepeats(ss, calls);
      }
    }
    calls
  }

  /** No sensor gets two calls. */
  predicate NoRepeats(calls: seq<SwapCall>) {
    forall i, j | 0 <= i < j < |calls| && calls[i].kind == calls[j].kind :: calls[i].name != calls[j].name
  }

  /** One `setAxisSwap` call per sensor, in order. */
  function CallsFor(g: Globals, ss: seq<Sensor>, def: int): (calls: seq<SwapCall>)
    ensures |calls| == |ss|
    ensures forall i | 0 <= i < |ss| :: Sensor(calls[i].kind, calls[i].name) == ss[i]
    ensures forall i | 0 <= i < |ss| :: calls[i].swap == AxisSwap(g, ss[i].kind, ss[i].name, def)
  {
    seq(|ss|, i requires 0 <= i < |ss| => SwapCall(ss[i].kind, ss[i].name, AxisSwap(g, ss[i].kind, ss[i].name, def)))
  }

  /** Calls made on a list of sensors inherit its properties. */
  lemma CallsFollowTargets(g: Globals, registry: set<Sensor>, ss: seq<Sensor>, calls: seq<SwapCall>)
    requires |calls| == |ss| && forall i | 0 <= i < |ss| :: Sensor(calls[i].kind, calls[i].name) == ss[i]
    requires Eligible(g, registry, ss)
    requires forall kind, n | Configured(g, kind, n) && Sensor(kind, n) in registry :: exists i | 0 <= i < |ss| :: ss[i] == Sensor(kind, n)
    requires forall i, j | 0 <= i < j < |ss| :: Rank(ss[i].kind) <= Rank(ss[j].kind)
    ensures forall i | 0 <= i < |calls| :: Sensor(calls[i].kind, calls[i].name) in registry && Configured(g, calls[i].kind, calls[i].name)
    ensures forall kind, n | Configured(g, kind, n) && Sensor(kind, n) in registry :: exists i | 0 <= i < |calls| :: calls[i].kind == kind && calls[i].name == n
    ensures forall i, j | 0 <= i < j < |calls| :: Rank(calls[i].kind) <= Rank(calls[j].kind)
  {
    forall kind, n | Configured(g, kind, n) && Sensor(kind, n) in registry
      ensures exists i | 0 <= i < |calls| :: calls[i].kind == kind && calls[i].name == n
    {
      var i :| 0 <= i < |ss| && ss[i] == Sensor(kind, n);
      assert Sensor(calls[i].kind, calls[i].name) == ss[i];
    }
  }

  /** Calls made on distinct sensors repeat none. */
  lemma CallsNoRepeats(ss: seq<Sensor>, calls: seq<SwapCall>)
    requires |calls| == |ss| && forall i | 0 <= i < |ss| :: Sensor(calls[i].kind, calls[i].name) == ss[i]
    requires DistinctSensors(ss)
    ensures NoRepeats(calls)
  {
    forall i, j | 0 <= i < j < |calls| && calls[i].kind == calls[j].kind ensures calls[i].name != calls[j].name {
      assert ss[i] != ss[j];
      assert Sensor(calls[i].kind, calls[i].name) == ss[i];
      assert Sensor(calls[j].kind, calls[j].name) == ss[j];
    }
  }

  lemma ConcatEligible(g: Globals, registry: set<Sensor>, gs: seq<Sensor>, as_: seq<Sensor>, ms: seq<Sensor>)
    requires Eligible(g, registry, gs) && Eligible(g, registry, as_) && Eligible(g, registry, ms)
    ensures Eligible(g, registry, gs + as_ + ms)
  {
    var ss := gs + as_ + ms;
    forall a | 0 <= a < |ss| ensures ss[a] in registry && Configured(g, ss[a].kind, ss[a].name) {
      if a < |gs| {
        assert ss[a] == gs[a];
      } else if a < |gs| + |as_| {
        assert ss[a] == as_[a - |gs|];
      } else {
        assert ss[a] == ms[a - |gs| - |as_|];
      }
    }
  }

  lemma ConcatOrder(gs: seq<Sensor>, as_: seq<Sensor>, ms: seq<Sensor>)
    requires OfKind(Gyroscope, gs) && OfKind(Accelerometer, as_) && OfKind(Magnetometer, ms)
    ensures var ss := gs + as_ + ms;
      forall i, j | 0 <= i < j < |ss| :: Rank(ss[i].kind) <= Rank(ss[j].kind)
  {
    var ss := gs + as_ + ms;
    var p := |gs|;
    var q := |gs| + |as_|;
    assert forall a | 0 <= a < p :: ss[a] == gs[a] && Rank(ss[a].kind) == 0;
    assert forall a | p <= a < q :: ss[a] == as_[a - p] && Rank(ss[a].kind) == 1;
    assert forall a | q <= a < |ss| :: ss[a] == ms[a - q] && Rank(ss[a].kind) == 2;
  }

  /** Distinct blocks of different kinds join into distinct sensors. */
  lemma ConcatDistinct(gs: seq<Sensor>, as_: seq<Sensor>, ms: seq<Sensor>)
    requires OfKind(Gyroscope, gs) && OfKind(Accelerometer, as_) && OfKind(Magnetometer, ms)
    requires DistinctSensors(gs) && DistinctSensors(as_) && DistinctSensors(ms)
    ensures DistinctSensors(gs + as_ + ms)
  {
    var ss := gs + as_ + ms;
    var p := |gs|;
    var q := |gs| + |as_|;
    assert forall a | 0 <= a < p :: ss[a] == gs[a] && Rank(ss[a].kind) == 0;
    assert forall a | p <= a < q :: ss[a] == as_[a - p] && Rank(ss[a].kind) == 1;
    assert forall a | q <= a < |ss| :: ss[a] == ms[a - q] && Rank(ss[a].kind) == 2;
  }

  lemma ConcatCovers(g: Globals, registry: set<Sensor>, gs: seq<Sensor>, as_: seq<Sensor>, ms: seq<Sensor>)
    requires Covers(g, Gyroscope, registry, gs) && Covers(g, Accelerometer, registry, as_) && Covers(g, Magnetometer, registry, ms)
    ensures var ss := gs + as_ + ms;
      forall kind, n | Configured(g, kind, n) && Sensor(kind, n) in registry :: exists i | 0 <= i < |ss| :: ss[i] == Sensor(kind, n)
  {
    var ss := gs + as_ + ms;
    var p := |gs|;
    var q := |gs| + |as_|;
    forall kind, n | Configured(g, kind, n) && Sensor(kind, n) in registry
      ensures exists i | 0 <= i < |ss| :: ss[i] == Sensor(kind, n)
    {
      match kind
      case Gyroscope =>
        var i :| 0 <= i < |gs| && gs[i] == Sensor(kind, n);
        assert ss[i] == gs[i];
      case Accelerometer =>
        var i :| 0 <= i < |as_| && as_[i] == Sensor(kind, n);
        assert ss[p + i] == as_[i];
      case Magnetometer =>
        var i :| 0 <= i < |ms| && ms[i] == Sensor(kind, n);
        assert ss[q + i] == ms[i];
    }
  }

  /** For a sensor name without separators, each swap entry is the integer
      coercion of `axis_swap.<axis>` in the sensor's table, or the default
      when the table or the entry is missing. */
  lemma AxisSwapEntry(g: Globals, kind: Kind, name: string, axis: string, def: int)
    requires PlainToken(name) && PlainToken(axis)
    ensures var o := if Global(g, TableName(kind)) == Nil then None
                     else FieldChain(Global(g, TableName(kind)), [name, "axis_swap", axis]);
      Integer(g, AxisPath(kind, name, axis), def) == if o.None? then def else ToInt32(ToInteger(o.value))
  {
    var ts := [TableName(kind), name, "axis_swap", axis];
    AxisPathDotted(kind, name, axis);
    IntegerDotted(g, ts, def);
    assert ts[1..] == [name, "axis_swap", axis];
  }

  /** An axis path is the dotted path of four plain names. */
  lemma AxisPathDotted(kind: Kind, name: string, axis: string)
    requires PlainToken(name) && PlainToken(axis)
    ensures var ts := [TableName(kind), name, "axis_swap", axis];
      AllPlain(ts) && Dotted(ts) == AxisPath(kind, name, axis)
  {
    var t := TableName(kind);
    var ts := [t, name, "axis_swap", axis];
    PlainNames(kind);
    assert AllPlain(ts);
    DottedCons("axis_swap", [axis]);
    DottedCons(name, ["axis_swap", axis]);
    DottedCons(t, [name, "axis_swap", axis]);
    assert [t] + [name, "axis_swap", axis] == ts;
    AxisPathText(t, name, axis);
  }

  /** Proof step of `AxisPathDotted`: the path text is the dotted form of
      its four names. */
  lemma AxisPathText(t: string, name: string, axis: string)
    ensures t + "." + (name + "." + ("axis_swap" + "." + axis)) == t + "." + name + ".axis_swap." + axis
  {
    assert "." + "axis_swap" + "." == ".axis_swap.";
    assert name + "." + ("axis_swap" + "." + axis) == name + ".axis_swap." + axis;
  }

  /** The fixed names on an axis path are plain tokens. */
  lemma PlainNames(kind: Kind)
    ensures PlainToken(TableName(kind)) && PlainToken("axis_swap")
  {
    assert PlainToken("axis_swap");
    match kind
    case Gyroscope => assert PlainToken(TableName(kind));
    case Accelerometer => assert PlainToken(TableName(kind));
    case Magnetometer => assert PlainToken(TableName(kind));
  }

  /** Proof step of `AxisPathDotted`: a dotted path is its first name, a
      dot and the rest. */
  lemma DottedCons(t: string, ts: seq<string>)
    requires |ts| >= 1
    ensures Dotted([t] + ts) == t + "." + Dotted(ts)
  {
    assert ([t] + ts)[1..] == ts;
  }

  /** `Reload`'s user-sensor pass: every entry of `user_sensors` is
      registered under its name, with the path of its own parameters; the
      name is the key cut at its first NUL (`Names`).
      `configRan` says whether the main script ran; when it failed,
      `Reload` returned before this pass and nothing is registered, not
      even the sensors the script stored before its error. */
  function UserSensorRegistrations(g: Globals, configRan: bool, names: seq<string>): (regs: seq<(string, string)>)
    requires configRan ==> Lists(Global(g, "user_sensors"), names)
    ensures !configRan ==> regs == []
    ensures configRan ==> |regs| == |names|
    ensures configRan ==> forall i | 0 <= i < |regs| :: regs[i].0 == CString(names[i]) && regs[i].1 == "user_sensors." + CString(names[i])
    ensures configRan && NulFree(names) ==> forall i | 0 <= i < |regs| :: regs[i] == (names[i], "user_sensors." + names[i])
  {
    if !configRan then []
    else
      var ns := Names(names);
      forall i | 0 <= i < |names| && NoNul(names[i]) ensures ns[i] == names[i] {
        CStringPlain(names[i]);
      }
      seq(|names|, i requires 0 <= i < |names| => (ns[i], "user_sensors." + ns[i]))
  }

  /** The path a user sensor is registered under resolves to the
      parameters `RegisterSensor` stored for it. */
  lemma UserSensorPathResolves(g: Globals, names: seq<string>, i: int)
    requires Lists(Global(g, "user_sensors"), names)
    requires 0 <= i < |names| && PlainToken(names[i])
    ensures var regs := UserSensorRegistrations(g, true, names);
      Locate(g, regs[i].1) == Some(Global(g, "user_sensors").t[SKey(names[i])])
  {
    CStringPlain(names[i]);
    var ts := ["user_sensors", names[i]];
    assert PlainToken("user_sensors");
    assert AllPlain(ts);
    assert ts[1..] == [names[i]];
    assert Dotted(ts) == "user_sensors." + names[i];
    LocateDotted(g, ts);
    var u := Global(g, "user_sensors");
    assert SKey(names[i]) in LiveKeys(u.t);
    assert FieldChain(u, [names[i]]) == Some(Field(u, names[i])) by {
      assert [names[i]][1..] == [];
    }
  }
}

=== FILE: document.dfy ===
/** The Lua state the configuration core reads, as an immutable value: a
    global namespace mapping names to values, where a value is nil, a
    boolean, an integral number, a string or a table. Also the Lua C API
    primitives the core calls on it: field and integer-key lookup, the
    length operator (`lua_objlen`) and the `lua_to*` coercions. */
module Document {
  import opened Wrappers
  import Text

  /** A table key: an integer (array slot) or a string (named field). */
  datatype Key = IKey(i: int) | SKey(s: string)

  /** A Lua value. Numbers are integral; functions and userdata never occur
      in configuration data read by the core. */
  datatype Value = Nil | Bool(b: bool) | Num(n: int) | Str(s: string) | Table(t: map<Key, Value>)

  /** The global namespace (`LUA_GLOBALSINDEX`). */
  type Globals = map<string, Value>

  /** A table entry; an absent key, like one bound to nil, reads as nil. */
  function Get(t: map<Key, Value>, k: Key): (v: Value)
    ensures v != Nil ==> k in t && t[k] == v
  {
    if k in t then t[k] else Nil
  }

  /** `lua_getfield(L, LUA_GLOBALSINDEX, name)`. */
  function Global(g: Globals, name: string): (v: Value)
    ensures v != Nil ==> name in g && g[name] == v
    ensures name in g ==> v == g[name]
    ensures name !in g ==> v == Nil
  {
    if name in g then g[name] else Nil
  }

  /** `lua_getfield(L, -1, name)` on the value `v`. A field of a value that is
      not a table reads as nil here (Lua would raise an error or consult a
      metatable). */
  function Field(v: Value, name: string): (r: Value)
    ensures r != Nil ==> v.Table? && SKey(name) in v.t && v.t[SKey(name)] == r
    ensures v.Table? && SKey(name) in v.t ==> r == v.t[SKey(name)]
  {
    if v.Table? then Get(v.t, SKey(name)) else Nil
  }

  /** `lua_rawgeti(L, -1, n)`: the entry under integer key `n`. */
  function RawGetI(v: Value, n: int): (r: Value)
    ensures r != Nil ==> v.Table? && IKey(n) in v.t && v.t[IKey(n)] == r
    ensures v.Table? && IKey(n) in v.t ==> r == v.t[IKey(n)]
  {
    if v.Table? then Get(v.t, IKey(n)) else Nil
  }

  /** Array slot `n` of the table holds a non-nil value. */
  predicate Present(t: map<Key, Value>, n: int) {
    Get(t, IKey(n)) != Nil
  }

  /** Slots 1..n all hold values. */
  predicate PrefixPresent(t: map<Key, Value>, n: nat) {
    forall j | 1 <= j <= n :: Present(t, j)
  }

  /** `n` is a border of the table: slots 1..n are present and slot n+1 is
      not. */
  predicate IsBorder(t: map<Key, Value>, n: nat) {
    PrefixPresent(t, n) && !Present(t, n + 1)
  }

  function Slots(n: nat): (s: set<Key>)
    ensures forall j :: 1 <= j <= n ==> IKey(j) in s
    ensures forall k :: k in s ==> k.IKey? && 1 <= k.i <= n
    ensures |s| == n
  {
    if n == 0 then {} else Slots(n - 1) + {IKey(n)}
  }

  /** A table cannot have more present array slots than entries. */
  lemma PrefixPresentBound(t: map<Key, Value>, n: nat)
    requires PrefixPresent(t, n)
    ensures n <= |t|
  {
    var s := Slots(n);
    forall k | k in s ensures k in t.Keys {
      assert Present(t, k.i);
    }
    assert t.Keys == s + (t.Keys - s);
  }

  function BorderFrom(t: map<Key, Value>, i: nat): (n: nat)
    requires 1 <= i && PrefixPresent(t, i - 1)
    ensures i - 1 <= n && IsBorder(t, n)
    decreases |t| + 1 - i
  {
    if Present(t, i) then
      PrefixPresentBound(t, i);
      BorderFrom(t, i + 1)
    else i - 1
  }

  /** The length of the table's array part as `lua_objlen` reports it; for a
      table with holes Lua may report any border, the model takes the
      smallest one. */
  function Border(t: map<Key, Value>): (n: nat)
    ensures IsBorder(t, n)
  {
    BorderFrom(t, 1)
  }

  /** A table has exactly one border that no hole precedes. */
  lemma BorderUnique(t: map<Key, Value>, n: nat)
    requires IsBorder(t, n)
    ensures Border(t) == n
  {
    var b := Border(t);
    assert !Present(t, b + 1) && !Present(t, n + 1);
  }

  /** `lua_objlen` on the values the core passes to it; a number's length
      (that of its decimal text) is not needed by any caller. */
  function ObjLen(v: Value): (n: nat)
    requires !v.Num?
    ensures v.Table? ==> IsBorder(v.t, n)
    ensures v.Str? ==> n == |v.s|
    ensures v.Nil? || v.Bool? ==> n == 0
  {
    if v.Table? then Border(v.t)
    else if v.Str? then |v.s|
    else 0
  }

  /** The keys `lua_next` visits: those bound to a non-nil value. */
  function LiveKeys(t: map<Key, Value>): (s: set<Key>)
    ensures forall k :: k in s <==> Get(t, k) != Nil
  {
    set k | k in t && t[k] != Nil
  }

  /** The number of iterations of a `lua_next` loop over the table. */
  function EntryCount(t: map<Key, Value>): nat {
    |LiveKeys(t)|
  }

  /** The table a Lua constructor `{ x1, x2, ... }` of numbers builds. */
  function ArrayOf(xs: seq<int>): (t: map<Key, Value>)
    ensures forall j :: 1 <= j <= |xs| ==> Get(t, IKey(j)) == Num(xs[j - 1])
    ensures forall k :: k in t ==> k.IKey? && 1 <= k.i <= |xs|
  {
    map j | 1 <= j <= |xs| :: IKey(j) := Num(xs[j - 1])
  }

  /** The length of an array constructor's table is its element count. */
  lemma BorderOfArray(xs: seq<int>)
    ensures Border(ArrayOf(xs)) == |xs|
  {
    var t := ArrayOf(xs);
    assert !Present(t, |xs| + 1);
    BorderUnique(t, |xs|);
  }

  /** `lua_toboolean`: only nil and false are false. */
  function ToBoolean(v: Value): (b: bool)
    ensures !b <==> v == Nil || v == Bool(false)
  {
    !(v.Nil? || v == Bool(false))
  }

  /** `lua_tointeger`: a number gives itself, a string holding decimal
      integer text gives its value, anything else gives 0. */
  function ToInteger(v: Value): (r: int)
    ensures v.Num? ==> r == v.n
    ensures v.Str? && Text.ParseDecimal(v.s).Some? ==> r == Text.ParseDecimal(v.s).value
    ensures v.Str? && Text.ParseDecimal(v.s).None? ==> r == 0
    ensures v.Nil? || v.Bool? || v.Table? ==> r == 0
  {
    match v
    case Num(n) => n
    case Str(s) => Text.ParseDecimal(s).GetOr(0)
    case _ => 0
  }

  const Int32Min: int := -0x8000_0000
  const Int32Max: int := 0x7FFF_FFFF

  predicate InInt32(x: int) {
    Int32Min <= x <= Int32Max
  }

  /** The conversion of a `lua_Integer` to the C `int` the accessors return:
      two's-complement wrap-around to 32 bits. */
  function ToInt32(x: int): (r: int)
    ensures InInt32(r)
    ensures (r - x) % 0x1_0000_0000 == 0
    ensures InInt32(x) ==> r == x
  {
    (x - Int32Min) % 0x1_0000_0000 + Int32Min
  }

  /** `lua_tonumber`, with the same string rule as `ToInteger`. */
  function ToNumber(v: Value): (r: real)
    ensures r == ToInteger(v) as real
  {
    match v
    case Num(n) => n as real
    case Str(s) => Text.ParseDecimal(s).GetOr(0) as real
    case _ => 0.0
  }

  /** Lua prints numbers with "%.14g": plain decimal text for integers of at
      most 14 digits. */
  const PlainDigitsLimit: int := 100_000_000_000_000

  /** `lua_tolstring` returns a string for these values and a null pointer
      for every other one. */
  predicate HasLString(v: Value) {
    v.Str? || (v.Num? && -PlainDigitsLimit < v.n < PlainDigitsLimit)
  }

  /** `lua_tolstring` on a string or a number. */
  function ToLString(v: Value): (s: string)
    requires HasLString(v)
    ensures v.Str? ==> s == v.s
    ensures v.Num? ==> Text.ParseDecimal(s) == Some(v.n)
  {
    match v
    case Str(s) => s
    case Num(n) => Text.ParseIntToString(n); Text.IntToString(n)
  }

  /** Decimal text stored as a Lua string coerces back to its number. */
  lemma ToIntegerOfDecimal(n: int)
    ensures ToInteger(Str(Text.IntToString(n))) == n
  {
    Text.ParseIntToString(n);
  }
}

=== FILE: path.dfy ===
/** `Config::LocateValue`: resolving a path such as `a.b[2].c` against the
    Lua globals.

    Two descriptions of the same resolver live here. `Scan` follows the
    C++ loop character by character, with its buffer `tmp`, its segment
    counter `k`, its `in_table` flag and the value on top of the Lua stack.
    `Tokenize` and `Run` split the same work into a tokenizer producing
    segments and an evaluator walking them; `ScanAgrees` proves the two
    agree, and the properties of the resolver are proved about the second.

    The C++ loop has one latent defect: a path whose first character is a
    separator counts the empty leading token, so its first real token is
    looked up in whatever value an earlier call left on the Lua stack
    (`LocateAsWritten`, `StaleStackCounterexample`). `Locate` reports such
    paths as not found. */
module PathResolver {
  import opened Wrappers
  import opened Document
  import Text

  /** The characters that end a token. */
  predicate IsSep(c: char) {
    c == '.' || c == '[' || c == ']'
  }

  predicate NoSep(s: string) {
    forall i | 0 <= i < |s| :: !IsSep(s[i])
  }

  predicate NoNul(s: string) {
    '\0' !in s
  }

  /** A name that can be one segment of a path. */
  predicate PlainToken(s: string) {
    s != [] && NoSep(s) && NoNul(s)
  }

  /** The text the C code sees through `c_str()`: up to the first NUL. */
  function CString(s: string): (r: string)
    ensures |r| <= |s| && r == s[..|r|] && NoNul(r)
    ensures |r| < |s| ==> s[|r|] == '\0'
  {
    s[..Text.Find(s, '\0')]
  }

  /** Paths without `.` and `[` take the direct global lookup. */
  predicate IsBare(s: string) {
    '.' !in s && '[' !in s
  }

  /** Index of the first separator, or `|s|`. */
  function FirstSep(s: string): (r: nat)
    ensures r <= |s| && NoSep(s[..r])
    ensures r < |s| ==> IsSep(s[r])
  {
    if s == [] || IsSep(s[0]) then 0
    else
      var r := 1 + FirstSep(s[1..]);
      assert s[..r] == [s[0]] + s[1..][..r - 1];
      r
  }

  /** The global a path starts from: the whole name on the direct path,
      otherwise the text before the first separator. */
  function RootName(s: string): string {
    if IsBare(s) then s else s[..FirstSep(s)]
  }

  /** A lookup result: nil is not-found. */
  function Lift(v: Value): (r: Option<Value>)
    ensures r.Some? <==> v != Nil
    ensures r.Some? ==> r.value == v
  {
    if v == Nil then None else Some(v)
  }

  /** `lua_rawgeti` with `atoi(tmp)` when the bracketed token starts with a
      digit, `lua_getfield` with the token verbatim otherwise. */
  function Bracket(v: Value, tok: string): Value {
    if tok != [] && Text.IsDigit(tok[0]) then RawGetI(v, Text.Atoi(tok)) else Field(v, tok)
  }

  // ---------------------------------------------------------------------
  // The loop as written.

  /** One iteration of the `for` loop at character `i`: `tmp` is
      `tmp[0..j]`, `k` counts the tokens ended so far (empty ones included),
      `top` is the value on top of the Lua stack. After the last character
      the pending token, if any, is a field of `top`. */
  function Scan(g: Globals, name: string, i: nat, tmp: string, k: nat, inTable: bool, top: Value): (r: Option<Value>)
    requires i <= |name|
    ensures r.Some? && top != Nil ==> r.value != Nil
    decreases |name| - i
  {
    if i == |name| then
      if tmp == [] then Some(top) else Lift(Field(top, tmp))
    else if IsSep(name[i]) then
      if tmp == [] then Scan(g, name, i + 1, [], k + 1, inTable, top)
      else
        var inT := inTable || name[i] == '[';
        var v :=
          if inT && name[i] == ']' && top.Table? then Bracket(top, tmp)
          else if k == 0 then Global(g, tmp)
          else Field(top, tmp);
        if v == Nil then None
        else Scan(g, name, i + 1, [], k + 1, inT, v)
    else Scan(g, name, i + 1, tmp + [name[i]], k, inTable, top)
  }

  /** `LocateValue` as written, under the modelling choices of `Document`
      (values, lookups) and an unbounded `tmp` buffer; `stale` is the value
      an earlier call left on top of the Lua stack. A found value is nil
      only when nothing was looked up and `stale` is nil, as for the path
      `.`. */
  function LocateAsWritten(g: Globals, stale: Value, path: string): (r: Option<Value>)
    ensures r.Some? && stale != Nil ==> r.value != Nil
    ensures IsBare(CString(path)) ==> r == Lift(Global(g, CString(path)))
  {
    var name := CString(path);
    if IsBare(name) then Lift(Global(g, name))
    else Scan(g, name, 0, [], 0, false, stale)
  }

  // ---------------------------------------------------------------------
  // Tokenizer.

  /** What ended a token: `.`, `[`, `]` or the end of the path. */
  datatype Closer = Dot | Open | Close | End

  datatype Segment = Segment(token: string, closer: Closer)

  function CloserOf(c: char): (r: Closer)
    requires IsSep(c)
    ensures r != End
  {
    if c == '.' then Dot else if c == '[' then Open else Close
  }

  /** The separator a closer stands for (nothing for the end). */
  function CloserText(c: Closer): (s: string)
    ensures c != End ==> |s| == 1 && IsSep(s[0]) && CloserOf(s[0]) == c
    ensures c == End ==> s == []
  {
    match c
    case Dot => "."
    case Open => "["
    case Close => "]"
    case End => ""
  }

  /** Ends the pending token at separator `c`; an empty token is dropped. */
  function Emit(pending: string, c: char): seq<Segment>
    requires IsSep(c)
  {
    if pending == [] then [] else [Segment(pending, CloserOf(c))]
  }

  /** Ends the pending token at the end of the path. */
  function Flush(pending: string): seq<Segment> {
    if pending == [] then [] else [Segment(pending, End)]
  }

  /** Non-empty separator-free tokens; only the last may end at the end. */
  predicate WellFormed(segs: seq<Segment>) {
    forall i | 0 <= i < |segs| ::
      segs[i].token != [] && NoSep(segs[i].token) && (segs[i].closer == End ==> i == |segs| - 1)
  }

  /** Splits the rest of a path `s` into segments, `pending` being the
      token read so far. */
  function Tokenize(s: string, pending: string): (segs: seq<Segment>)
    requires NoSep(pending)
    ensures WellFormed(segs)
    decreases |s|
  {
    if s == [] then Flush(pending)
    else if IsSep(s[0]) then Emit(pending, s[0]) + Tokenize(s[1..], [])
    else Tokenize(s[1..], pending + [s[0]])
  }

  /** The segments completed while reading `s`. */
  function Done(s: string, pending: string): seq<Segment>
    decreases |s|
  {
    if s == [] then []
    else if IsSep(s[0]) then Emit(pending, s[0]) + Done(s[1..], [])
    else Done(s[1..], pending + [s[0]])
  }

  /** The token still pending after reading `s`. */
  function Pending(s: string, pending: string): string
    decreases |s|
  {
    if s == [] then pending
    else if IsSep(s[0]) then Pending(s[1..], [])
    else Pending(s[1..], pending + [s[0]])
  }

  /** The path text a segment list spells. */
  function Join(segs: seq<Segment>): string {
    if segs == [] then [] else segs[0].token + CloserText(segs[0].closer) + Join(segs[1..])
  }

  // ---------------------------------------------------------------------
  // Evaluator.

  /** The resolver's state between segments: whether the next token is the
      first one (looked up among the globals), whether a `[` has closed a
      token, and the current value. */
  datatype Cursor = Cursor(first: bool, inTable: bool, top: Value)

  /** The value one segment looks up. */
  function Lookup(g: Globals, cur: Cursor, seg: Segment): Value {
    if seg.closer == End then Field(cur.top, seg.token)
    else
      var inT := cur.inTable || seg.closer == Open;
      if inT && seg.closer == Close && cur.top.Table? then Bracket(cur.top, seg.token)
      else if cur.first then Global(g, seg.token)
      else Field(cur.top, seg.token)
  }

  function Advance(cur: Cursor, seg: Segment, v: Value): Cursor {
    Cursor(false, cur.inTable || seg.closer == Open, v)
  }

  /** Walks the segments; the first nil ends the walk with not-found. */
  function Run(g: Globals, segs: seq<Segment>, cur: Cursor): (r: Option<Cursor>)
    ensures r.Some? && segs != [] ==> r.value.top != Nil && !r.value.first
    ensures r.Some? && segs != [] && segs[|segs| - 1].closer == Open ==> r.value.inTable
    decreases |segs|
  {
    if segs == [] then Some(cur)
    else
      var v := Lookup(g, cur, segs[0]);
      if v == Nil then None
      else Run(g, segs[1..], Advance(cur, segs[0], v))
  }

  function Resolve(g: Globals, segs: seq<Segment>, cur: Cursor): Option<Value> {
    match Run(g, segs, cur)
    case None => None
    case Some(c) => Some(c.top)
  }

  // ---------------------------------------------------------------------
  // Tokenizer lemmas.

  /** Reading separator-free text only extends the pending token. */
  lemma {:induction false} PlainText(t: string, pending: string)
    requires NoSep(t)
    ensures Done(t, pending) == []
    ensures Pending(t, pending) == pending + t
    decreases |t|
  {
    if t != [] {
      assert NoSep(t[1..]);
      PlainText(t[1..], pending + [t[0]]);
      assert pending + [t[0]] + t[1..] == pending + t;
    }
  }

  /** A separator at the end completes the pending token. */
  lemma {:induction false} DoneSnoc(p: string, c: char, pending: string)
    requires IsSep(c)
    ensures Done(p + [c], pending) == Done(p, pending) + Emit(Pending(p, pending), c)
    ensures Pending(p + [c], pending) == []
    decreases |p|
  {
    if p != [] {
      assert (p + [c])[1..] == p[1..] + [c];
      if IsSep(p[0]) {
        DoneSnoc(p[1..], c, []);
      } else {
        DoneSnoc(p[1..], c, pending + [p[0]]);
      }
    } else {
      assert Done([c], pending) == Emit(pending, c) + Done([], []);
    }
  }

  /** Tokenizing a concatenation: the segments the prefix completes, then
      the suffix tokenized from the prefix's pending token. */
  lemma {:induction false} TokenizeAppend(p: string, r: string, pending: string)
    requires NoSep(pending)
    ensures NoSep(Pending(p, pending))
    ensures Tokenize(p + r, pending) == Done(p, pending) + Tokenize(r, Pending(p, pending))
    decreases |p|
  {
    if p == [] {
      assert p + r == r;
    } else {
      assert (p + r)[0] == p[0] && (p + r)[1..] == p[1..] + r;
      if IsSep(p[0]) {
        TokenizeAppend(p[1..], r, []);
      } else {
        TokenizeAppend(p[1..], r, pending + [p[0]]);
      }
    }
  }

  /** A token followed by a separator becomes one segment. */
  lemma TokenizeToken(t: string, c: char, r: string)
    requires t != [] && NoSep(t) && IsSep(c)
    ensures Tokenize(t + [c] + r, []) == [Segment(t, CloserOf(c))] + Tokenize(r, [])
  {
    TokenizeAppend(t + [c], r, []);
    DoneSnoc(t, c, []);
    PlainText(t, []);
    assert [] + t == t;
  }

  /** A token alone at the end becomes one end segment. */
  lemma TokenizeLast(t: string)
    requires t != [] && NoSep(t)
    ensures Tokenize(t, []) == [Segment(t, End)]
  {
    TokenizeAppend(t, [], []);
    PlainText(t, []);
    assert t + [] == t && [] + t == t;
  }

  /** The first segment of a path that starts with a token and contains a
      separator is that token, ended by the first separator. */
  lemma TokenizeHead(s: string)
    requires s != [] && !IsSep(s[0]) && FirstSep(s) < |s|
    ensures Tokenize(s, []) == [Segment(s[..FirstSep(s)], CloserOf(s[FirstSep(s)]))] + Tokenize(s[FirstSep(s) + 1..], [])
  {
    var f := FirstSep(s);
    assert f != 0;
    TokenizeAt(s, f);
  }

  /** A path whose first separator is at `f > 0` starts with the token
      before it. */
  lemma TokenizeAt(s: string, f: nat)
    requires 0 < f < |s| && NoSep(s[..f]) && IsSep(s[f])
    ensures Tokenize(s, []) == [Segment(s[..f], CloserOf(s[f]))] + Tokenize(s[f + 1..], [])
  {
    SplitAround(s, f);
    TokenizeToken(s[..f], s[f], s[f + 1..]);
  }

  /** Proof step of `TokenizeAt`: a sequence is the part before `f`,
      element `f` and the part after. */
  lemma SplitAround(s: string, f: nat)
    requires f < |s|
    ensures s[..f] + [s[f]] + s[f + 1..] == s
  {
  }

  /** Tokenizing the text a well-formed segment list spells gives the list
      back. */
  lemma {:induction false} TokenizeJoin(segs: seq<Segment>)
    requires WellFormed(segs)
    ensures Tokenize(Join(segs), []) == segs
    decreases |segs|
  {
    if segs != [] {
      var s := segs[0];
      assert WellFormed(segs[1..]) by {
        forall i | 0 <= i < |segs[1..]| ensures segs[1..][i] == segs[i + 1] { }
      }
      if s.closer == End {
        assert |segs| == 1 && segs[1..] == [];
        assert Join(segs) == s.token + [] + Join([]);
        assert Join(segs) == s.token;
        TokenizeLast(s.token);
      } else {
        var c := CloserText(s.closer)[0];
        assert Join(segs) == s.token + [c] + Join(segs[1..]);
        TokenizeToken(s.token, c, Join(segs[1..]));
        TokenizeJoin(segs[1..]);
      }
    }
  }

  // ---------------------------------------------------------------------
  // Evaluator lemmas.

  /** Walking a concatenation walks the first part, then the second from
      where the first stopped; a not-found in the first part is final. */
  lemma {:induction false} RunAppend(g: Globals, a: seq<Segment>, b: seq<Segment>, cur: Cursor)
    ensures Run(g, a + b, cur) == (match Run(g, a, cur) case None => None case Some(c) => Run(g, b, c))
    decreases |a|
  {
    if a == [] {
      assert a + b == b;
    } else {
      assert (a + b)[0] == a[0] && (a + b)[1..] == a[1..] + b;
      var v := Lookup(g, cur, a[0]);
      if v != Nil {
        RunAppend(g, a[1..], b, Advance(cur, a[0], v));
      }
    }
  }

  /** The first segment of a path, unless it is the last token, is a global
      lookup whatever value the walk starts from. */
  lemma RunFirstIsGlobal(g: Globals, segs: seq<Segment>, a: Value, b: Value)
    requires segs != [] && segs[0].closer != End
    ensures Run(g, segs, Cursor(true, false, a)) == Run(g, segs, Cursor(true, false, b))
    ensures Run(g, segs, Cursor(true, false, a)).Some? ==> Global(g, segs[0].token) != Nil
  {
    assert Lookup(g, Cursor(true, false, a), segs[0]) == Global(g, segs[0].token);
    assert Lookup(g, Cursor(true, false, b), segs[0]) == Global(g, segs[0].token);
  }

  // ---------------------------------------------------------------------
  // The resolver.

  /** `LocateValue` on the C string of a path, with the leading-separator
      defect corrected: `None` is the not-found return (-1), `Some(v)` the
      value left on top of the Lua stack. */
  function LocateName(g: Globals, name: string): (r: Option<Value>)
    ensures r.Some? ==> r.value != Nil
    ensures IsBare(name) ==> r == Lift(Global(g, name))
    ensures r.Some? ==> Global(g, RootName(name)) != Nil
    ensures !IsBare(name) && IsSep(name[0]) ==> r == None
  {
    if IsBare(name) then Lift(Global(g, name))
    else if IsSep(name[0]) then None
    else
      TokenizeHead(name);
      RunFirstIsGlobal(g, Tokenize(name, []), Nil, Nil);
      Resolve(g, Tokenize(name, []), Cursor(true, false, Nil))
  }

  /** `LocateValue(path)`, corrected. */
  function Locate(g: Globals, path: string): (r: Option<Value>)
    ensures r.Some? ==> r.value != Nil
    ensures IsBare(CString(path)) ==> r == Lift(Global(g, CString(path)))
    ensures r.Some? ==> Global(g, RootName(CString(path))) != Nil
    ensures !IsBare(CString(path)) && IsSep(CString(path)[0]) ==> r == None
  {
    LocateName(g, CString(path))
  }

  /** The C++ loop and the tokenizer-plus-evaluator compute the same
      result, from any loop state whose counter is not zero while an empty
      token is still to be skipped. */
  lemma {:induction false} ScanAgrees(g: Globals, name: string, i: nat, tmp: string, k: nat, inTable: bool, top: Value)
    requires i <= |name| && NoSep(tmp)
    requires k == 0 && tmp == [] && i < |name| ==> !IsSep(name[i])
    ensures Scan(g, name, i, tmp, k, inTable, top) == Resolve(g, Tokenize(name[i..], tmp), Cursor(k == 0, inTable, top))
    decreases |name| - i
  {
    var cur := Cursor(k == 0, inTable, top);
    if i == |name| {
      assert name[i..] == [];
      ResolveFlush(g, tmp, cur);
    } else {
      var c := name[i];
      assert name[i..][0] == c && name[i..][1..] == name[i + 1..];
      TokenizeStep(name[i..], tmp);
      if IsSep(c) {
        var rest := Tokenize(name[i + 1..], []);
        if tmp == [] {
          assert k != 0;
          ScanAgrees(g, name, i + 1, [], k + 1, inTable, top);
          assert [] + rest == rest;
        } else {
          var seg := Segment(tmp, CloserOf(c));
          ResolveCons(g, seg, rest, cur);
          ScanLookup(g, c, tmp, k, inTable, top);
          var v := Lookup(g, cur, seg);
          if v != Nil {
            ScanAgrees(g, name, i + 1, [], k + 1, inTable || c == '[', v);
          }
        }
      } else {
        ScanAgrees(g, name, i + 1, tmp + [c], k, inTable, top);
      }
    }
  }

  /** The loop's lookup at a separator is the evaluator's, and so is the
      `in_table` flag it carries on. */
  lemma ScanLookup(g: Globals, c: char, tmp: string, k: nat, inTable: bool, top: Value)
    requires IsSep(c)
    ensures var seg := Segment(tmp, CloserOf(c));
      var cur := Cursor(k == 0, inTable, top);
      var inT := inTable || c == '[';
      && Lookup(g, cur, seg) ==
           (if inT && c == ']' && top.Table? then Bracket(top, tmp)
            else if k == 0 then Global(g, tmp)
            else Field(top, tmp))
      && Advance(cur, seg, top).inTable == inT
  {
  }

  /** One step of the tokenizer. */
  lemma TokenizeStep(s: string, pending: string)
    requires s != [] && NoSep(pending)
    ensures IsSep(s[0]) ==> Tokenize(s, pending) == Emit(pending, s[0]) + Tokenize(s[1..], [])
    ensures !IsSep(s[0]) ==> Tokenize(s, pending) == Tokenize(s[1..], pending + [s[0]])
  {
  }

  /** The pending token at the end of the path is a field lookup. */
  lemma ResolveFlush(g: Globals, tmp: string, cur: Cursor)
    ensures Resolve(g, Flush(tmp), cur) == if tmp == [] then Some(cur.top) else Lift(Field(cur.top, tmp))
  {
    if tmp != [] {
      var seg := Segment(tmp, End);
      var v := Field(cur.top, tmp);
      assert Lookup(g, cur, seg) == v;
      if v != Nil {
        assert Run(g, [seg], cur) == Run(g, [], Advance(cur, seg, v));
      }
    }
  }

  /** Walking a segment list one segment at a time. */
  lemma ResolveCons(g: Globals, seg: Segment, rest: seq<Segment>, cur: Cursor)
    ensures Resolve(g, [seg] + rest, cur) ==
      var v := Lookup(g, cur, seg);
      if v == Nil then None else Resolve(g, rest, Advance(cur, seg, v))
  {
    assert ([seg] + rest)[0] == seg && ([seg] + rest)[1..] == rest;
  }

  /** Apart from paths that start with a separator, the loop as written
      and the corrected resolver agree, whatever is left on the stack. */
  lemma LocateAgrees(g: Globals, stale: Value, path: string)
    requires IsBare(CString(path)) || !IsSep(CString(path)[0])
    ensures LocateAsWritten(g, stale, path) == Locate(g, path)
  {
    var name := CString(path);
    if !IsBare(name) {
      ScanAgrees(g, name, 0, [], 0, false, stale);
      assert name[0..] == name;
      TokenizeHead(name);
      RunFirstIsGlobal(g, Tokenize(name, []), stale, Nil);
      NameResolves(g, name);
    }
  }

  /** As written, `.a` finds field `a` of whatever table is left on the
      stack although no global is named `a`, nor `` (its root name). */
  lemma StaleStackCounterexample()
    ensures LocateAsWritten(map[], Table(map[SKey("a") := Num(1)]), ".a") == Some(Num(1))
    ensures Locate(map[], ".a") == None
  {
    var stale := Table(map[SKey("a") := Num(1)]);
    var name := ".a";
    assert CString(name) == name by {
      assert Text.Find(name, '\0') == 2 by {
        assert Text.Find(name[1..], '\0') == 1;
      }
    }
    assert name[0] == '.' && name[1] == 'a';
    assert Scan(map[], name, 0, [], 0, false, stale) == Scan(map[], name, 1, [], 1, false, stale);
    assert Scan(map[], name, 1, [], 1, false, stale) == Scan(map[], name, 2, [] + ['a'], 1, false, stale);
    assert [] + ['a'] == "a";
    assert Field(stale, "a") == Num(1);
  }

  // ---------------------------------------------------------------------
  // Path properties.

  lemma {:induction false} FindAppend(a: string, b: string)
    requires NoNul(a)
    ensures Text.Find(a + b, '\0') == |a| + Text.Find(b, '\0')
    decreases |a|
  {
    if a != [] {
      assert (a + b)[0] == a[0] && (a + b)[1..] == a[1..] + b;
      FindAppend(a[1..], b);
    } else {
      assert a + b == b;
    }
  }

  /** A NUL-free prefix passes through `c_str()` unchanged. */
  lemma CStringAppend(a: string, b: string)
    requires NoNul(a)
    ensures CString(a + b) == a + CString(b)
    ensures CString(a) == a
  {
    FindAppend(a, b);
    var f := Text.Find(b, '\0');
    assert (a + b)[..|a| + f] == a + b[..f];
    CStringPlain(a);
  }

  /** A NUL-free text passes through `c_str()` whole. */
  lemma CStringPlain(a: string)
    requires NoNul(a)
    ensures CString(a) == a
  {
    assert Text.Find(a, '\0') == |a|;
  }

  /** A prefix ending in a separator completes all its segments. */
  lemma SplitAtSep(p: string, c: char, r: string)
    requires IsSep(c)
    ensures Tokenize(p + [c] + r, []) == Done(p + [c], []) + Tokenize(r, [])
    ensures Tokenize(p + [c], []) == Done(p + [c], [])
  {
    TokenizeAppend(p + [c], r, []);
    TokenizeAppend(p + [c], [], []);
    DoneSnoc(p, c, []);
    assert p + [c] + [] == p + [c];
  }

  /** Resolving a name that extends `p + [c]`: both start the same way, and
      when they start with a token both walk the segments of `p + [c]`
      first. */
  lemma SlowPrefix(g: Globals, p: string, c: char, r: string)
    requires c == '.' || c == '['
    ensures !IsBare(p + [c]) && !IsBare(p + [c] + r)
    ensures (p + [c])[0] == (p + [c] + r)[0]
    ensures IsSep((p + [c])[0]) ==> LocateName(g, p + [c]) == None && LocateName(g, p + [c] + r) == None
    ensures !IsSep((p + [c])[0]) ==>
      && LocateName(g, p + [c]) == Resolve(g, Done(p + [c], []), Cursor(true, false, Nil))
      && Run(g, Tokenize(p + [c] + r, []), Cursor(true, false, Nil))
         == (match Run(g, Done(p + [c], []), Cursor(true, false, Nil))
             case None => None
             case Some(cur) => Run(g, Tokenize(r, []), cur))
  {
    assert (p + [c])[|p|] == c && (p + [c] + r)[|p|] == c;
    SplitAtSep(p, c, r);
    RunAppend(g, Done(p + [c], []), Tokenize(r, []), Cursor(true, false, Nil));
  }

  /** Once a path prefix ending in `.` or `[` is not found, no extension of
      it is found: later segments are never consulted. */
  lemma NameStopsAtNil(g: Globals, p: string, c: char, r: string)
    requires c == '.' || c == '['
    requires LocateName(g, p + [c]) == None
    ensures LocateName(g, p + [c] + r) == None
  {
    SlowPrefix(g, p, c, r);
  }

  lemma LocateStopsAtNil(g: Globals, p: string, c: char, q: string)
    requires c == '.' || c == '['
    requires NoNul(p)
    requires Locate(g, p + [c]) == None
    ensures Locate(g, p + [c] + q) == None
  {
    CStringAppend(p + [c], q);
    NameStopsAtNil(g, p, c, CString(q));
  }

  /** A token after a prefix ending in `.` or `[` is a field of the value
      the prefix resolves to. */
  lemma NameExtendField(g: Globals, p: string, c: char, t: string, v: Value)
    requires c == '.' || c == '['
    requires t != [] && NoSep(t)
    requires LocateName(g, p + [c]) == Some(v)
    ensures LocateName(g, p + [c] + t) == Lift(Field(v, t))
  {
    SlowPrefix(g, p, c, t);
    TokenizeLast(t);
    var cur0 := Cursor(true, false, Nil);
    assert Run(g, Done(p + [c], []), cur0).Some?;
    var cur := Run(g, Done(p + [c], []), cur0).value;
    assert cur.top == v;
    var seg := Segment(t, End);
    assert Lookup(g, cur, seg) == Field(v, t);
    if Field(v, t) != Nil {
      assert Run(g, [seg], cur) == Run(g, [], Advance(cur, seg, Field(v, t)));
    }
  }

  lemma LocateExtendField(g: Globals, p: string, c: char, t: string, v: Value)
    requires c == '.' || c == '['
    requires NoNul(p) && PlainToken(t)
    requires Locate(g, p + [c]) == Some(v)
    ensures Locate(g, p + [c] + t) == Lift(Field(v, t))
  {
    CStringAppend(p + [c], t);
    CStringAppend(t, []);
    NameExtendField(g, p, c, t, v);
  }

  /** Text ending in a token character leaves that token pending. */
  lemma {:induction false} PendingLast(p: string, pending: string)
    requires p != [] && !IsSep(p[|p| - 1])
    ensures Pending(p, pending) != []
    decreases |p|
  {
    if |p| > 1 {
      assert p[1..][|p[1..]| - 1] == p[|p| - 1];
      if IsSep(p[0]) {
        PendingLast(p[1..], []);
      } else {
        PendingLast(p[1..], pending + [p[0]]);
      }
    }
  }

  /** A bracketed token after a name is an element of the value the name
      resolves to: an integer key when the token starts with a digit and
      the value is a table, a field otherwise. */
  lemma NameIndex(g: Globals, p: string, t: string, v: Value)
    requires p != [] && !IsSep(p[|p| - 1]) && t != [] && NoSep(t)
    requires LocateName(g, p + "[") == Some(v)
    ensures LocateName(g, p + "[" + t + "]") == Lift(Bracket(v, t))
  {
    assert p + "[" == p + ['['];
    assert p + "[" + t + "]" == p + ['['] + (t + [']'] + []);
    SlowPrefix(g, p, '[', t + [']'] + []);
    DoneSnoc(p, '[', []);
    PendingLast(p, []);
    TokenizeToken(t, ']', []);
    assert Tokenize([], []) == [];
    var seg := Segment(t, Close);
    assert Tokenize(t + [']'] + [], []) == [seg];
    var cur0 := Cursor(true, false, Nil);
    var segs := Done(p + ['['], []);
    assert segs[|segs| - 1].closer == Open;
    assert Run(g, segs, cur0).Some?;
    var cur := Run(g, segs, cur0).value;
    assert cur.inTable && !cur.first && cur.top == v;
    var w := Lookup(g, cur, seg);
    assert w == Bracket(v, t);
    if w != Nil {
      assert Run(g, [seg], cur) == Run(g, [], Advance(cur, seg, w));
    }
  }

  lemma LocateIndex(g: Globals, p: string, t: string, v: Value)
    requires NoNul(p) && p != [] && !IsSep(p[|p| - 1]) && PlainToken(t)
    requires Locate(g, p + "[") == Some(v)
    ensures Locate(g, p + "[" + t + "]") == Lift(Bracket(v, t))
  {
    assert p + "[" + t + "]" == (p + "[") + (t + "]");
    CStringAppend(p + "[", t + "]");
    CStringAppend(t + "]", []);
    NameIndex(g, p, t, v);
  }

  /** The resolver's state after reading the whole of `name` from the
      globals: the walk's cursor, or `None` once a segment is nil. */
  function Walk(g: Globals, name: string): Option<Cursor> {
    Run(g, Tokenize(name, []), Cursor(true, false, Nil))
  }

  /** A separator right after a separator ends an empty token, which is
      dropped before anything else happens. */
  lemma TokenizeSkipsSep(p: string, d: char)
    requires p != [] && IsSep(p[|p| - 1]) && IsSep(d)
    ensures Tokenize(p + [d], []) == Tokenize(p, [])
  {
    var q := p[..|p| - 1];
    assert q + [p[|p| - 1]] == p;
    SplitAtSep(q, p[|p| - 1], [d]);
    assert Tokenize([d], []) == [] + Tokenize([], []);
  }

  /** A token closed by `]` after a prefix that ends in a separator is one
      more segment after the prefix's. */
  lemma TokenizeClosed(p: string, t: string)
    requires p != [] && IsSep(p[|p| - 1]) && t != [] && NoSep(t)
    ensures Tokenize(p + t + [']'], []) == Tokenize(p, []) + [Segment(t, Close)]
  {
    assert p + t + [']'] == p + (t + [']'] + []);
    var q := p[..|p| - 1];
    assert q + [p[|p| - 1]] == p;
    SplitAtSep(q, p[|p| - 1], t + [']'] + []);
    TokenizeToken(t, ']', []);
    assert Tokenize([], []) == [];
  }

  /** A name that starts with a token and contains a separator has a
      segment, so its walk leaves the first-token state. */
  lemma WalkMoves(g: Globals, p: string, cur: Cursor)
    requires p != [] && !IsSep(p[0]) && IsSep(p[|p| - 1])
    requires Walk(g, p) == Some(cur)
    ensures !cur.first && cur.top != Nil
  {
    EndsInSep(p);
    TokenizeHead(p);
    assert Tokenize(p, []) != [];
  }

  /** Proof step of `WalkMoves`. */
  lemma EndsInSep(p: string)
    requires p != [] && IsSep(p[|p| - 1])
    ensures FirstSep(p) < |p|
  {
    assert p[..|p|] == p;
  }

  /** The walk through a `]`-closed token after such a prefix. */
  lemma WalkClosed(g: Globals, p: string, t: string, cur: Cursor)
    requires p != [] && !IsSep(p[0]) && IsSep(p[|p| - 1]) && t != [] && NoSep(t)
    requires Walk(g, p) == Some(cur)
    ensures Walk(g, p + t + [']']) ==
      (var w := if cur.inTable then Bracket(cur.top, t) else Field(cur.top, t);
       if w == Nil then None else Some(Cursor(false, cur.inTable, w)))
  {
    TokenizeClosed(p, t);
    WalkMoves(g, p, cur);
    var seg := Segment(t, Close);
    RunAppend(g, Tokenize(p, []), [seg], Cursor(true, false, Nil));
    var w := Lookup(g, cur, seg);
    assert w == if cur.inTable then Bracket(cur.top, t) else Field(cur.top, t);
    if w != Nil {
      assert Run(g, [seg], cur) == Run(g, [], Advance(cur, seg, w));
    }
  }

  /** A token closed by `]` after a prefix that ends in a separator: the
      `in_table` flag the prefix left decides the lookup. Once set by any
      earlier `[`, it is never reset, so the token is a bracketed element
      (`Bracket`); otherwise it is a plain field. The walk goes on with the
      flag unchanged. */
  lemma LocateClosedToken(g: Globals, p: string, t: string, cur: Cursor)
    requires p != [] && NoNul(p) && !IsBare(p) && !IsSep(p[0]) && IsSep(p[|p| - 1])
    requires PlainToken(t)
    requires Walk(g, p) == Some(cur)
    ensures Locate(g, p + t + [']']) == Lift(if cur.inTable then Bracket(cur.top, t) else Field(cur.top, t))
    ensures Walk(g, p + t + [']']) ==
      (var w := if cur.inTable then Bracket(cur.top, t) else Field(cur.top, t);
       if w == Nil then None else Some(Cursor(false, cur.inTable, w)))
  {
    WalkClosed(g, p, t, cur);
    ClosedName(p, t);
    LocateNoNul(g, p + t + [']']);
    NameResolves(g, p + t + [']']);
  }

  /** Proof step of `LocateClosedToken`: the extended path is NUL-free,
      not bare, and starts like `p`. */
  lemma ClosedName(p: string, t: string)
    requires p != [] && NoNul(p) && !IsBare(p) && !IsSep(p[0]) && NoNul(t)
    ensures NoNul(p + t + [']']) && !IsBare(p + t + [']']) && !IsSep((p + t + [']'])[0])
  {
    var name := p + t + [']'];
    assert '\0' !in t + [']'];
    assert name == p + (t + [']']);
    assert forall x :: x in p ==> x in name;
  }

  /** `p[i]` after a name leaves `in_table` set and element `i` on top. */
  lemma WalkIndex(g: Globals, p: string, i: string, v: Value)
    requires p != [] && NoNul(p) && !IsSep(p[|p| - 1]) && PlainToken(i)
    requires Locate(g, p + ['[']) == Some(v)
    ensures Walk(g, p + ['['] + i + [']']) ==
      (var w := Bracket(v, i); if w == Nil then None else Some(Cursor(false, true, w)))
  {
    var o := p + ['['];
    assert o[|o| - 1] == '[';
    assert NoNul(o) by {
      assert '\0' !in ['['];
    }
    LocateNoNul(g, o);
    assert !IsSep(o[0]);
    NameResolves(g, o);
    SplitAtSep(p, '[', []);
    DoneSnoc(p, '[', []);
    PendingLast(p, []);
    var segs := Tokenize(o, []);
    assert segs[|segs| - 1].closer == Open;
    var cur := Walk(g, o).value;
    assert cur.inTable && cur.top == v;
    LocateClosedToken(g, o, i, cur);
  }

  /** A token closed by `]` after `p[i]` and one more separator is still
      read with `in_table` set: `a[1][2]`, `a[1].2]` and `a[1]]2]` all
      read element 2 of `a[1]`. */
  lemma LocateAfterIndex(g: Globals, p: string, i: string, d: char, t: string, v: Value)
    requires p != [] && NoNul(p) && !IsSep(p[|p| - 1]) && PlainToken(i) && PlainToken(t) && IsSep(d)
    requires Locate(g, p + ['[']) == Some(v)
    requires Bracket(v, i) != Nil
    ensures Locate(g, p + ['['] + i + [']', d] + t + [']']) == Lift(Bracket(Bracket(v, i), t))
  {
    var q := p + ['['] + i + [']'];
    WalkIndex(g, p, i, v);
    TokenizeSkipsSep(q, d);
    FoundStartsWithToken(g, p, v);
    IndexedPrefix(p, i, d, t);
    LocateClosedToken(g, q + [d], t, Cursor(false, true, Bracket(v, i)));
  }

  /** A found `p[` does not start with a separator. */
  lemma FoundStartsWithToken(g: Globals, p: string, v: Value)
    requires p != [] && NoNul(p)
    requires Locate(g, p + ['[']) == Some(v)
    ensures !IsSep(p[0])
  {
    var o := p + ['['];
    assert NoNul(o) by {
      assert '\0' !in ['['];
    }
    CStringPlain(o);
    assert o[0] == p[0] && o[|p|] == '[';
  }

  /** Proof step of `LocateAfterIndex`: facts about the text `p[i]d`. */
  lemma IndexedPrefix(p: string, i: string, d: char, t: string)
    requires p != [] && NoNul(p) && NoNul(i) && IsSep(d) && !IsSep(p[0])
    ensures var r := p + ['['] + i + [']', d];
      && r == p + ['['] + i + [']'] + [d]
      && r[|r| - 1] == d && r[0] == p[0] && NoNul(r) && !IsBare(r)
      && r + t + [']'] == p + ['['] + i + [']', d] + t + [']']
  {
    var r := p + ['['] + i + [']', d];
    assert '\0' !in ['['] + i + [']', d];
    assert r == p + (['['] + i + [']', d]);
    assert r[|p|] == '[';
  }

  /** `a.[t]` reads field `t` of global `a`, even when `t` is a number:
      the empty token between `.` and `[` is skipped before `[` could set
      `in_table`. */
  lemma LocateDotBracket(g: Globals, a: string, t: string)
    requires PlainToken(a) && PlainToken(t)
    ensures Locate(g, a + ['.', '['] + t + [']']) ==
      (var v := Global(g, a); if v == Nil then None else Lift(Field(v, t)))
  {
    var o := a + ['.'];
    TokenizeToken(a, '.', []);
    assert o + [] == o;
    assert Tokenize([], []) == [];
    var seg := Segment(a, Dot);
    assert Tokenize(o, []) == [seg];
    var v := Global(g, a);
    var cur0 := Cursor(true, false, Nil);
    assert Lookup(g, cur0, seg) == v;
    assert o[|o| - 1] == '.';
    TokenizeSkipsSep(o, '[');
    var r := o + ['['];
    assert r == a + ['.', '['];
    if v == Nil {
      assert Walk(g, o) == None;
      assert Walk(g, r) == None;
      assert NoNul(r) by {
        assert '\0' !in ['.', '['];
      }
      LocateNoNul(g, r);
      assert r[|a|] == '.';
      NameResolves(g, r);
      assert Locate(g, r) == None;
      LocateStopsAtNil(g, a + ['.'], '[', t + [']']);
      assert a + ['.'] + ['['] + (t + [']']) == a + ['.', '['] + t + [']'];
    } else {
      assert Run(g, [seg], cur0) == Run(g, [], Advance(cur0, seg, v));
      assert Walk(g, r) == Some(Cursor(false, false, v));
      assert r[0] == a[0] && r[|r| - 1] == '[';
      assert NoNul(r) by {
        assert '\0' !in ['.', '['];
      }
      assert !IsBare(r) by {
        assert r[|a|] == '.';
      }
      LocateClosedToken(g, r, t, Cursor(false, false, v));
    }
  }

  /** An empty token between two separators is skipped: `a..b` resolves
      like `a.b`, and `a.[1]` like `a.1]`. */
  lemma NameSkipsEmptyToken(g: Globals, p: string, c: char, d: char, r: string)
    requires c == '.' || c == '['
    requires IsSep(d)
    ensures LocateName(g, p + [c] + ([d] + r)) == LocateName(g, p + [c] + r)
  {
    SlowPrefix(g, p, c, [d] + r);
    SlowPrefix(g, p, c, r);
    assert ([d] + r)[0] == d && ([d] + r)[1..] == r;
    assert Tokenize([d] + r, []) == [] + Tokenize(r, []);
    assert [] + Tokenize(r, []) == Tokenize(r, []);
  }

  lemma LocateSkipsEmptyToken(g: Globals, p: string, c: char, d: char, q: string)
    requires c == '.' || c == '['
    requires IsSep(d) && NoNul(p)
    ensures Locate(g, p + [c, d] + q) == Locate(g, p + [c] + q)
  {
    assert p + [c, d] + q == (p + [c]) + ([d] + q);
    CStringAppend(p + [c], [d] + q);
    CStringAppend(p + [c], q);
    CStringAppend([d], q);
    NameSkipsEmptyToken(g, p, c, d, CString(q));
  }

  /** The text before the first separator of `t + [c]` is a global. */
  lemma NameRoot(g: Globals, t: string, c: char)
    requires c == '.' || c == '['
    requires t != [] && NoSep(t)
    ensures LocateName(g, t + [c]) == Lift(Global(g, t))
  {
    assert (t + [c])[|t|] == c;
    assert t + [c] == t + [c] + [];
    TokenizeToken(t, c, []);
    assert Tokenize([], []) == [];
    var seg := Segment(t, CloserOf(c));
    assert Tokenize(t + [c], []) == [seg];
    var cur0 := Cursor(true, false, Nil);
    var v := Lookup(g, cur0, seg);
    assert v == Global(g, t);
    if v != Nil {
      assert Run(g, [seg], cur0) == Run(g, [], Advance(cur0, seg, v));
    }
  }

  /** A name followed by `.` or `[` resolves to the global of that name. */
  lemma LocateRoot(g: Globals, t: string, c: char)
    requires c == '.' || c == '['
    requires PlainToken(t)
    ensures Locate(g, t + [c]) == Lift(Global(g, t))
  {
    CStringAppend(t + [c], []);
    assert t + [c] + [] == t + [c];
    NameRoot(g, t, c);
  }

  /** A separator after a separator adds nothing at the end of a path:
      `a[2].` resolves like `a[2]`. */
  lemma NameTrailingSep(g: Globals, p: string, d: char)
    requires !IsBare(p) && IsSep(p[|p| - 1]) && IsSep(d)
    ensures LocateName(g, p + [d]) == LocateName(g, p)
  {
    var q := p[..|p| - 1];
    var c := p[|p| - 1];
    assert p == q + [c];
    assert (p + [d])[0] == p[0];
    if !IsSep(p[0]) {
      TokenizeAppend(p, [d], []);
      TokenizeAppend(p, [], []);
      DoneSnoc(q, c, []);
      assert p + [] == p;
      assert Tokenize([d], []) == [] + Tokenize([], []);
      assert Tokenize(p + [d], []) == Done(p, []) + [];
      assert Tokenize(p, []) == Done(p, []) + [];
    }
  }

  lemma LocateTrailingSep(g: Globals, p: string, d: char)
    requires NoNul(p) && !IsBare(p) && IsSep(p[|p| - 1]) && IsSep(d)
    ensures Locate(g, p + [d]) == Locate(g, p)
  {
    CStringAppend(p, [d]);
    CStringAppend([d], []);
    assert [d] + [] == [d];
    NameTrailingSep(g, p, d);
  }

  // ---------------------------------------------------------------------
  // Dotted paths.

  /** `t0.t1. ... .tn` */
  function Dotted(ts: seq<string>): string
    requires |ts| >= 1
  {
    if |ts| == 1 then ts[0] else ts[0] + "." + Dotted(ts[1..])
  }

  /** The segments of a dotted path: every token but the last ends at a dot. */
  function DotSegments(ts: seq<string>): seq<Segment> {
    seq(|ts|, i requires 0 <= i < |ts| => Segment(ts[i], if i == |ts| - 1 then End else Dot))
  }

  /** Field `ts[0]` of `v`, then field `ts[1]` of that, and so on; the first
      nil ends the walk with not-found. */
  function FieldChain(v: Value, ts: seq<string>): Option<Value> {
    if ts == [] then Some(v)
    else if Field(v, ts[0]) == Nil then None
    else FieldChain(Field(v, ts[0]), ts[1..])
  }

  predicate AllPlain(ts: seq<string>) {
    forall i | 0 <= i < |ts| :: PlainToken(ts[i])
  }

  lemma {:induction false} DottedIsJoin(ts: seq<string>)
    requires |ts| >= 1
    ensures Dotted(ts) == Join(DotSegments(ts))
    decreases |ts|
  {
    var segs := DotSegments(ts);
    if |ts| == 1 {
      assert segs[1..] == [];
      assert Join(segs) == ts[0] + [] + Join([]);
    } else {
      assert segs[1..] == DotSegments(ts[1..]);
      DottedIsJoin(ts[1..]);
    }
  }

  lemma {:induction false} DottedFacts(ts: seq<string>)
    requires |ts| >= 1 && AllPlain(ts)
    ensures NoNul(Dotted(ts))
    ensures Dotted(ts)[0] == ts[0][0]
    ensures |ts| >= 2 <==> !IsBare(Dotted(ts))
    decreases |ts|
  {
    if |ts| > 1 {
      DottedFacts(ts[1..]);
      var d := Dotted(ts);
      assert d[|ts[0]|] == '.';
      assert forall i | 0 <= i < |d| :: d[i] == '.' || d[i] == '[' || d[i] == '\0' ==>
        |ts[0]| <= i && (i == |ts[0]| || Dotted(ts[1..])[i - |ts[0]| - 1] == d[i]);
    } else {
      assert forall i | 0 <= i < |ts[0]| :: !IsSep(ts[0][i]);
    }
  }

  lemma {:induction false} RunDotSegments(g: Globals, ts: seq<string>, cur: Cursor)
    requires |ts| >= 1 && !cur.first
    ensures Resolve(g, DotSegments(ts), cur) == FieldChain(cur.top, ts)
    decreases |ts|
  {
    var segs := DotSegments(ts);
    var v := Lookup(g, cur, segs[0]);
    assert v == Field(cur.top, ts[0]);
    if v != Nil {
      var next := Advance(cur, segs[0], v);
      assert Run(g, segs, cur) == Run(g, segs[1..], next);
      if |ts| == 1 {
        assert segs[1..] == [] && ts[1..] == [];
        assert FieldChain(v, ts[1..]) == Some(v);
      } else {
        assert segs[1..] == DotSegments(ts[1..]);
        RunDotSegments(g, ts[1..], next);
      }
    }
  }

  /** A dotted path of plain names is the global named by the first one,
      then one field lookup per further name, not found as soon as one
      lookup gives nil. */
  lemma LocateDotted(g: Globals, ts: seq<string>)
    requires |ts| >= 1 && AllPlain(ts)
    ensures Locate(g, Dotted(ts)) == (if Global(g, ts[0]) == Nil then None else FieldChain(Global(g, ts[0]), ts[1..]))
  {
    DottedFacts(ts);
    var name := Dotted(ts);
    LocateNoNul(g, name);
    if |ts| >= 2 {
      NameResolves(g, name);
      DottedTokens(ts);
      ResolveDotted(g, ts);
    } else {
      assert name == ts[0] && ts[1..] == [];
    }
  }

  /** A dotted path of at least two names tokenizes to its dot segments. */
  lemma DottedTokens(ts: seq<string>)
    requires |ts| >= 2 && AllPlain(ts)
    ensures Tokenize(Dotted(ts), []) == DotSegments(ts)
  {
    DottedIsJoin(ts);
    var segs := DotSegments(ts);
    assert WellFormed(segs) by {
      forall i | 0 <= i < |segs| ensures segs[i].token != [] && NoSep(segs[i].token) {
        assert PlainToken(ts[i]);
      }
    }
    TokenizeJoin(segs);
  }

  /** Walking the dot segments from the start: a global, then fields. */
  lemma ResolveDotted(g: Globals, ts: seq<string>)
    requires |ts| >= 2
    ensures Resolve(g, DotSegments(ts), Cursor(true, false, Nil))
      == (if Global(g, ts[0]) == Nil then None else FieldChain(Global(g, ts[0]), ts[1..]))
  {
    var segs := DotSegments(ts);
    var cur0 := Cursor(true, false, Nil);
    var v := Lookup(g, cur0, segs[0]);
    assert v == Global(g, ts[0]);
    if v != Nil {
      assert segs[1..] == DotSegments(ts[1..]);
      RunDotSegments(g, ts[1..], Advance(cur0, segs[0], v));
    }
  }

  /** A path without NUL is resolved whole. */
  lemma LocateNoNul(g: Globals, name: string)
    requires NoNul(name)
    ensures Locate(g, name) == LocateName(g, name)
  {
    CStringAppend(name, []);
    assert name + [] == name;
  }

  /** Proof step shared by the resolver lemmas: a path that starts with a
      token and has a separator is walked from the globals (the third
      branch of `LocateName`, stated apart so that callers need not
      unfold it). */
  lemma NameResolves(g: Globals, name: string)
    requires !IsBare(name) && !IsSep(name[0])
    ensures LocateName(g, name) == Resolve(g, Tokenize(name, []), Cursor(true, false, Nil))
  {
  }
}

=== FILE: settings.dfy ===
/** The settings overlay of `Config`: a map from setting names to text that
    `Reload` fills from the settings file (one `key = value` line per
    setting), that the setters update, and that `Save` writes back. The
    file is modelled as its contents; `std::getline` splits them at
    newlines. */
module Settings {
  import opened Wrappers
  import opened Text

  /** `mSettings`, compared as a map (its container type is not part of
      this model). */
  type Overlay = map<string, string>

  /** One setting: a parsed line, or an overlay entry to be saved. */
  datatype Setting = Setting(key: string, value: string)

  // ---------------------------------------------------------------------
  // Lines.

  /** The lines a `std::getline` loop reads: text up to each newline, plus
      the text after the last newline when it is not empty. */
  function SplitLines(s: string): (ls: seq<string>)
    ensures forall i | 0 <= i < |ls| :: '\n' !in ls[i]
    ensures s == [] <==> ls == []
    decreases |s|
  {
    if s == [] then []
    else
      var n := Find(s, '\n');
      if n == |s| then [s]
      else [s[..n]] + SplitLines(s[n + 1..])
  }

  /** Lines written one after the other, each followed by a newline. */
  function JoinLines(ls: seq<string>): string {
    if ls == [] then [] else ls[0] + "\n" + JoinLines(ls[1..])
  }

  lemma FindAfterLine(l: string, rest: string)
    requires '\n' !in l
    ensures Find(l + "\n" + rest, '\n') == |l|
  {
    var s := l + "\n" + rest;
    assert s[|l|] == '\n';
  }

  /** Reading back newline-terminated lines gives the same lines. */
  lemma {:induction false} SplitJoin(ls: seq<string>)
    requires forall i | 0 <= i < |ls| :: '\n' !in ls[i]
    ensures SplitLines(JoinLines(ls)) == ls
  {
    if ls != [] {
      var s := JoinLines(ls);
      var rest := JoinLines(ls[1..]);
      assert s == ls[0] + "\n" + rest;
      FindAfterLine(ls[0], rest);
      assert s[..|ls[0]|] == ls[0];
      assert s[|ls[0]| + 1..] == rest;
      SplitJoin(ls[1..]);
    }
  }

  /** Splitting then joining gives the text back with every line
      newline-terminated: unchanged when the text ends in a newline, with
      one newline added otherwise. */
  lemma {:induction false} JoinSplit(s: string)
    ensures s == [] ==> JoinLines(SplitLines(s)) == []
    ensures s != [] && s[|s| - 1] == '\n' ==> JoinLines(SplitLines(s)) == s
    ensures s != [] && s[|s| - 1] != '\n' ==> JoinLines(SplitLines(s)) == s + "\n"
    decreases |s|
  {
    if s != [] {
      var n := Find(s, '\n');
      if n == |s| {
        assert SplitLines(s) == [s];
        assert JoinLines([s]) == s + "\n" + [];
      } else {
        var rest := s[n + 1..];
        assert s == s[..n] + "\n" + rest;
        assert SplitLines(s) == [s[..n]] + SplitLines(rest);
        assert JoinLines(SplitLines(s)) == s[..n] + "\n" + JoinLines(SplitLines(rest)) by {
          assert ([s[..n]] + SplitLines(rest))[1..] == SplitLines(rest);
        }
        JoinSplit(rest);
        if rest != [] {
          assert rest[|rest| - 1] == s[|s| - 1];
        }
      }
    }
  }

  // ---------------------------------------------------------------------
  // The line parser.

  /** One line of the settings file: the key is the trimmed text before the
      first `=`, the value the trimmed text after it. Without an `=` the
      value's offset `npos + 1` wraps to 0, so key and value are both the
      whole trimmed line. */
  function ParseLine(line: string): (r: Setting)
    ensures IsTrimmed(r.key) && IsTrimmed(r.value)
    ensures '=' !in r.key
    ensures '=' !in line ==> r.key == Trim(line) && r.value == Trim(line)
  {
    var e := Find(line, '=');
    var keyText := line[..e];
    var valueText := if e == |line| then line else line[e + 1..];
    TrimKeepsOut(keyText, '=');
    assert '=' !in line ==> e == |line| && keyText == line;
    Setting(Trim(keyText), Trim(valueText))
  }

  /** A line holding an `=` splits at the first one. */
  lemma ParseAtFirstEquals(before: string, after: string)
    requires '=' !in before
    ensures ParseLine(before + "=" + after) == Setting(Trim(before), Trim(after))
  {
    var line := before + "=" + after;
    assert line[|before|] == '=';
    var e := Find(line, '=');
    assert e == |before|;
    assert line[..e] == before;
    assert line[e + 1..] == after;
  }

  // ---------------------------------------------------------------------
  // Loading.

  /** Every line of the file, parsed. */
  function ParseLines(lines: seq<string>): (ss: seq<Setting>)
    ensures |ss| == |lines|
    ensures forall i | 0 <= i < |lines| :: ss[i] == ParseLine(lines[i])
  {
    seq(|lines|, i requires 0 <= i < |lines| => ParseLine(lines[i]))
  }

  /** Setting `i` is the last one with key `k`. */
  predicate IsLastBinding(ss: seq<Setting>, k: string, i: int) {
    && 0 <= i < |ss|
    && ss[i].key == k
    && forall j | i < j < |ss| :: ss[j].key != k
  }

  /** Some setting has the key `k`. */
  predicate Mentions(ss: seq<Setting>, k: string) {
    exists i | 0 <= i < |ss| :: ss[i].key == k
  }

  /** The assignments `mSettings[key] = value`, in order: the result holds
      the old keys and every key assigned; each assigned key takes the value
      of its last assignment; the other keys keep their values. */
  function Assign(ov: Overlay, ss: seq<Setting>): (r: Overlay)
    ensures forall k :: k in r <==> k in ov || Mentions(ss, k)
    ensures forall k, i | IsLastBinding(ss, k, i) :: k in r && r[k] == ss[i].value
    ensures forall k | k in ov && !Mentions(ss, k) :: r[k] == ov[k]
    decreases |ss|
  {
    if ss == [] then ov
    else
      var n := |ss| - 1;
      var init := ss[..n];
      var s := ss[n];
      var prev := Assign(ov, init);
      forall k ensures Mentions(ss, k) <==> Mentions(init, k) || k == s.key {
        MentionsSnoc(init, s, k);
      }
      forall k, i | IsLastBinding(ss, k, i) && i < n ensures IsLastBinding(init, k, i) && k != s.key && init[i] == ss[i] {
        LastBindingInit(init, s, k, i);
      }
      prev[s.key := s.value]
  }

  lemma MentionsSnoc(init: seq<Setting>, s: Setting, k: string)
    ensures Mentions(init + [s], k) <==> Mentions(init, k) || s.key == k
  {
    var ss := init + [s];
    if Mentions(ss, k) {
      var i :| 0 <= i < |ss| && ss[i].key == k;
      if i < |init| {
        assert init[i] == ss[i];
      }
    }
    if Mentions(init, k) {
      var i :| 0 <= i < |init| && init[i].key == k;
      assert ss[i] == init[i];
    }
    assert ss[|init|] == s;
  }

  lemma LastBindingInit(init: seq<Setting>, s: Setting, k: string, i: int)
    requires IsLastBinding(init + [s], k, i) && i < |init|
    ensures IsLastBinding(init, k, i) && s.key != k && init[i] == (init + [s])[i]
  {
    var ss := init + [s];
    assert ss[|init|] == s;
    forall j | i < j < |init| ensures init[j].key != k {
      assert init[j] == ss[j];
    }
  }

  /** `Reload`'s pass over the settings file's contents. */
  function Load(ov: Overlay, contents: string): (r: Overlay)
    ensures ov.Keys <= r.Keys
  {
    Assign(ov, ParseLines(SplitLines(contents)))
  }

  /** Of two consecutive settings with the same key, the first has no
      effect. */
  lemma DuplicateLastWins(ov: Overlay, ss: seq<Setting>, first: Setting, second: Setting)
    requires first.key == second.key
    ensures Assign(ov, ss + [first, second]) == Assign(ov, ss + [second])
  {
    var a := ss + [first, second];
    var b := ss + [second];
    assert a[..|a| - 1] == ss + [first];
    assert (ss + [first])[..|ss|] == ss;
    assert b[..|b| - 1] == ss;
  }

  // ---------------------------------------------------------------------
  // Saving.

  /** The text `Save` writes for one setting. */
  function FormatLine(s: Setting): string {
    s.key + " = " + s.value + "\n"
  }

  /** Loading the one line `Save` writes for a clean setting binds its key
      to its value and changes nothing else. */
  lemma LoadFormatted(ov: Overlay, s: Setting)
    requires CleanKey(s.key) && CleanValue(s.value)
    ensures Load(ov, FormatLine(s)) == ov[s.key := s.value]
  {
    FormatLineSplits(s);
    ParseFormatted(s);
    AssignOne(ov, s);
  }

  /** Proof step of `LoadFormatted`: the line is read back whole. */
  lemma FormatLineSplits(s: Setting)
    requires '\n' !in s.key && '\n' !in s.value
    ensures SplitLines(FormatLine(s)) == [s.key + " = " + s.value]
  {
    var body := s.key + " = " + s.value;
    assert '\n' !in body;
    assert JoinLines([body]) == body + "\n" + JoinLines([]);
    assert FormatLine(s) == JoinLines([body]);
    SplitJoin([body]);
  }

  /** Proof step of `LoadFormatted`: one assignment is a map update. */
  lemma AssignOne(ov: Overlay, s: Setting)
    ensures Assign(ov, [s]) == ov[s.key := s.value]
  {
    assert [s][..0] == [];
  }

  /** `Save`: every entry of the overlay, one line each, in the order of
      `entries`. */
  function Save(entries: seq<Setting>): (text: string)
    ensures entries == [] <==> text == []
  {
    if entries == [] then []
    else FormatLine(entries[0]) + Save(entries[1..])
  }

  lemma {:induction false} SaveSnoc(entries: seq<Setting>, s: Setting)
    ensures Save(entries + [s]) == Save(entries) + FormatLine(s)
  {
    if entries != [] {
      assert (entries + [s])[1..] == entries[1..] + [s];
      SaveSnoc(entries[1..], s);
    }
  }

  /** `entries` lists exactly the settings of `m`, each with its value. */
  predicate Enumerates(entries: seq<Setting>, m: Overlay) {
    && (forall i | 0 <= i < |entries| :: entries[i].key in m && m[entries[i].key] == entries[i].value)
    && (forall k | k in m :: exists i | 0 <= i < |entries| :: entries[i].key == k)
  }

  /** A key that survives the round trip: no `=`, no newline, no surrounding
      whitespace. */
  predicate CleanKey(k: string) {
    '=' !in k && '\n' !in k && IsTrimmed(k)
  }

  /** A value that survives the round trip: no newline, no surrounding
      whitespace. */
  predicate CleanValue(v: string) {
    '\n' !in v && IsTrimmed(v)
  }

  predicate CleanOverlay(m: Overlay) {
    forall k | k in m :: CleanKey(k) && CleanValue(m[k])
  }

  /** The text of the lines `Save` writes, without their newlines. */
  function Bodies(entries: seq<Setting>): seq<string> {
    seq(|entries|, i requires 0 <= i < |entries| => entries[i].key + " = " + entries[i].value)
  }

  lemma {:induction false} SaveIsJoin(entries: seq<Setting>)
    ensures Save(entries) == JoinLines(Bodies(entries))
  {
    if entries != [] {
      assert Bodies(entries)[1..] == Bodies(entries[1..]);
      SaveIsJoin(entries[1..]);
    }
  }

  lemma TrimSpaceAfter(k: string)
    requires IsTrimmed(k)
    ensures Trim(k + " ") == k
  {
    TrimPadded([], k, " ");
    assert [] + k + " " == k + " ";
  }

  lemma TrimSpaceBefore(v: string)
    requires IsTrimmed(v)
    ensures Trim(" " + v) == v
  {
    TrimPadded(" ", v, []);
    assert " " + v + [] == " " + v;
  }

  /** A saved line parses back to its setting. */
  lemma ParseFormatted(s: Setting)
    requires CleanKey(s.key) && CleanValue(s.value)
    ensures ParseLine(s.key + " = " + s.value) == s
  {
    var before := s.key + " ";
    var after := " " + s.value;
    assert s.key + " = " + s.value == before + "=" + after;
    assert '=' !in before;
    ParseAtFirstEquals(before, after);
    TrimSpaceAfter(s.key);
    TrimSpaceBefore(s.value);
  }

  /** Assigning the entries of an overlay `m`, in any order, puts `m` on top
      of `ov`. */
  lemma AssignEnumerated(ov: Overlay, entries: seq<Setting>, m: Overlay)
    requires Enumerates(entries, m)
    ensures Assign(ov, entries) == ov + m
  {
    var r := Assign(ov, entries);
    AssignEnumeratedKeys(ov, entries, m);
    AssignEnumeratedValues(ov, entries, m);
    AssignEnumeratedRest(ov, entries, m);
    UnionEquals(r, ov, m);
  }

  /** A map that has the keys of `a + b`, the values of `b` on its keys and
      those of `a` elsewhere is `a + b`. */
  lemma UnionEquals(r: Overlay, a: Overlay, b: Overlay)
    requires forall k :: k in r <==> k in a || k in b
    requires forall k | k in b :: k in r && r[k] == b[k]
    requires forall k | k in r && k !in b :: k in a && r[k] == a[k]
    ensures r == a + b
  {
  }

  /** Proof step of `AssignEnumerated`: keys outside the overlay keep
      their values. */
  lemma AssignEnumeratedRest(ov: Overlay, entries: seq<Setting>, m: Overlay)
    requires Enumerates(entries, m)
    ensures forall k | k in Assign(ov, entries) && k !in m :: k in ov && Assign(ov, entries)[k] == ov[k]
  {
    AssignEnumeratedKeys(ov, entries, m);
    forall k | k in Assign(ov, entries) && k !in m ensures k in ov && Assign(ov, entries)[k] == ov[k] {
      assert !Mentions(entries, k);
    }
  }

  /** Proof step of `AssignEnumerated`: the keys. */
  lemma AssignEnumeratedKeys(ov: Overlay, entries: seq<Setting>, m: Overlay)
    requires Enumerates(entries, m)
    ensures forall k :: k in Assign(ov, entries) <==> k in ov || k in m
  {
    forall k | k in Assign(ov, entries) && k !in ov ensures k in m {
      var i :| 0 <= i < |entries| && entries[i].key == k;
    }
  }

  /** Proof step of `AssignEnumerated`: the overlay's keys take its
      values. */
  lemma AssignEnumeratedValues(ov: Overlay, entries: seq<Setting>, m: Overlay)
    requires Enumerates(entries, m)
    ensures forall k | k in m :: k in Assign(ov, entries) && Assign(ov, entries)[k] == m[k]
  {
    forall k | k in m ensures k in Assign(ov, entries) && Assign(ov, entries)[k] == m[k] {
      var i :| 0 <= i < |entries| && entries[i].key == k;
      LastBindingExists(entries, k, i);
    }
  }

  /** A key some setting has has a last setting giving it. */
  lemma LastBindingExists(ss: seq<Setting>, k: string, i: int)
    requires 0 <= i < |ss| && ss[i].key == k
    ensures exists j :: IsLastBinding(ss, k, j)
    decreases |ss| - i
  {
    if !IsLastBinding(ss, k, i) {
      var j :| i < j < |ss| && ss[j].key == k;
      LastBindingExists(ss, k, j);
    }
  }

  /** The lines `Save` writes parse back to the entries they came from. */
  lemma ParseSaved(entries: seq<Setting>)
    requires forall i | 0 <= i < |entries| :: CleanKey(entries[i].key) && CleanValue(entries[i].value)
    ensures SplitLines(Save(entries)) == Bodies(entries)
    ensures ParseLines(Bodies(entries)) == entries
  {
    BodiesAreLines(entries);
    SaveIsJoin(entries);
    SplitJoin(Bodies(entries));
    BodiesParse(entries);
  }

  /** Proof step of `ParseSaved`: the saved text splits into the bodies. */
  lemma BodiesAreLines(entries: seq<Setting>)
    requires forall i | 0 <= i < |entries| :: CleanKey(entries[i].key) && CleanValue(entries[i].value)
    ensures forall i | 0 <= i < |entries| :: '\n' !in Bodies(entries)[i]
  {
    forall i | 0 <= i < |entries| ensures '\n' !in Bodies(entries)[i] {
      assert Bodies(entries)[i] == entries[i].key + " = " + entries[i].value;
    }
  }

  /** Proof step of `ParseSaved`: each body parses to its setting. */
  lemma BodiesParse(entries: seq<Setting>)
    requires forall i | 0 <= i < |entries| :: CleanKey(entries[i].key) && CleanValue(entries[i].value)
    ensures ParseLines(Bodies(entries)) == entries
  {
    var ss := ParseLines(Bodies(entries));
    forall i | 0 <= i < |entries| ensures ss[i] == entries[i] {
      ParseFormatted(entries[i]);
    }
  }

  /** Saving an overlay and loading the file over `ov` gives `ov` with the
      overlay's settings on top. */
  lemma SaveLoadRoundTrip(ov: Overlay, entries: seq<Setting>, m: Overlay)
    requires Enumerates(entries, m) && CleanOverlay(m)
    ensures Load(ov, Save(entries)) == ov + m
  {
    ParseSaved(entries);
    AssignEnumerated(ov, entries, m);
  }

  /** `Save` over `mSettings`: the overlay's entries in some order, and the
      file text; loading that text restores the overlay. */
  method SaveOverlay(m: Overlay) returns (text: string, entries: seq<Setting>)
    ensures Enumerates(entries, m) && |entries| == |m|
    ensures text == Save(entries)
    ensures CleanOverlay(m) ==> forall ov :: Load(ov, text) == ov + m
  {
    var rest := m.Keys;
    text := [];
    entries := [];
    while rest != {}
      invariant rest <= m.Keys
      invariant Written(m, entries, rest) && Covered(m, entries, rest)
      invariant |entries| + |rest| == |m|
      invariant text == Save(entries)
      decreases |rest|
    {
      var k :| k in rest;
      var s := Setting(k, m[k]);
      SaveSnoc(entries, s);
      WriteStep(m, entries, rest, k);
      entries := entries + [s];
      text := text + FormatLine(s);
      rest := rest - {k};
    }
    WrittenAll(m, entries);
    if CleanOverlay(m) {
      forall ov ensures Load(ov, text) == ov + m {
        SaveLoadRoundTrip(ov, entries, m);
      }
    }
  }

  /** The entries written so far are settings of `m` not among `rest`. */
  predicate Written(m: Overlay, entries: seq<Setting>, rest: set<string>) {
    forall i | 0 <= i < |entries| :: entries[i].key in m && entries[i].key !in rest && m[entries[i].key] == entries[i].value
  }

  /** Every setting of `m` not among `rest` has been written. */
  predicate Covered(m: Overlay, entries: seq<Setting>, rest: set<string>) {
    forall k | k in m && k !in rest :: exists i | 0 <= i < |entries| :: entries[i].key == k
  }

  /** Proof step of `SaveOverlay`: with nothing left, every key is
      written. */
  lemma WrittenAll(m: Overlay, entries: seq<Setting>)
    requires Written(m, entries, {}) && Covered(m, entries, {})
    ensures Enumerates(entries, m)
  {
  }

  /** Writing key `k` next moves it from `rest` to the entries. */
  lemma WriteStep(m: Overlay, entries: seq<Setting>, rest: set<string>, k: string)
    requires k in rest && rest <= m.Keys
    requires Written(m, entries, rest) && Covered(m, entries, rest)
    ensures Written(m, entries + [Setting(k, m[k])], rest - {k})
    ensures Covered(m, entries + [Setting(k, m[k])], rest - {k})
  {
    var next := entries + [Setting(k, m[k])];
    forall k' | k' in m && k' !in rest - {k} ensures exists i | 0 <= i < |next| :: next[i].key == k' {
      if k' == k {
        assert next[|entries|].key == k;
      } else {
        var i :| 0 <= i < |entries| && entries[i].key == k';
        assert next[i] == entries[i];
      }
    }
  }

  // ---------------------------------------------------------------------
  // Setters and reload.

  /** `setBoolean`'s overlay half. */
  function SetBoolean(ov: Overlay, name: string, v: bool): (r: Overlay)
    ensures r.Keys == ov.Keys + {name}
    ensures r[name] == (if v then "true" else "false")
    ensures forall k | k in ov && k != name :: r[k] == ov[k]
  {
    ov[name := if v then "true" else "false"]
  }

  /** `setInteger`'s overlay half: the decimal text of an `int`, which Lua
      reads back as the same number. */
  function SetInteger(ov: Overlay, name: string, v: int): (r: Overlay)
    requires -0x8000_0000 <= v <= 0x7FFF_FFFF
    ensures r.Keys == ov.Keys + {name}
    ensures ParseDecimal(r[name]) == Some(v) && CleanValue(r[name])
    ensures forall k | k in ov && k != name :: r[k] == ov[k]
  {
    var text := IntToString(v);
    ParseIntToString(v);
    ov[name := text]
  }

  /** `setString`'s overlay half: the text is stored verbatim. */
  function SetString(ov: Overlay, name: string, v: string): (r: Overlay)
    ensures r.Keys == ov.Keys + {name}
    ensures r[name] == v
    ensures forall k | k in ov && k != name :: r[k] == ov[k]
  {
    ov[name := v]
  }

  /** What a setter does to the overlay, as `SetBoolean`, `SetInteger` and
      `SetString` state it: `name` is bound to `v` and nothing else changes. */
  predicate SetsOnly(ov: Overlay, r: Overlay, name: string, v: string) {
    && r.Keys == ov.Keys + {name}
    && name in r && r[name] == v
    && forall k | k in ov && k != name :: r[k] == ov[k]
  }

  /** A setter keeps an overlay clean when its name and text are clean. */
  lemma SetKeepsClean(ov: Overlay, r: Overlay, name: string, v: string)
    requires CleanOverlay(ov) && CleanKey(name) && CleanValue(v)
    requires SetsOnly(ov, r, name, v)
    ensures CleanOverlay(r)
  {
    forall k | k in r ensures CleanKey(k) && CleanValue(r[k]) {
      assert k in ov.Keys + {name};
    }
  }

  /** A setting written by a setter survives `Save` and a later `Reload`,
      as long as every name and value in the overlay is clean. */
  lemma SetThenReload(ov: Overlay, r: Overlay, name: string, v: string, entries: seq<Setting>)
    requires CleanOverlay(ov) && CleanKey(name) && CleanValue(v)
    requires SetsOnly(ov, r, name, v)
    requires Enumerates(entries, r)
    ensures Load(map[], Save(entries)) == r
  {
    SetKeepsClean(ov, r, name, v);
    ReloadSaved(entries, r);
  }

  /** Loading a saved overlay into an empty one gives the overlay. */
  lemma ReloadSaved(entries: seq<Setting>, m: Overlay)
    requires Enumerates(entries, m) && CleanOverlay(m)
    ensures Load(map[], Save(entries)) == m
  {
    var empty: Overlay := map[];
    assert empty + m == m;
    SaveLoadRoundTrip(empty, entries, m);
  }

  /** `setInteger` followed by `Save` and `Reload` reads back its number. */
  lemma SetIntegerThenReload(ov: Overlay, name: string, v: int, entries: seq<Setting>)
    requires CleanOverlay(ov) && CleanKey(name)
    requires -0x8000_0000 <= v <= 0x7FFF_FFFF
    requires Enumerates(entries, SetInteger(ov, name, v))
    ensures var r := Load(map[], Save(entries)); name in r && ParseDecimal(r[name]) == Some(v)
  {
    var r := SetInteger(ov, name, v);
    SetThenReload(ov, r, name, r[name], entries);
  }

  /** The overlay half of `Reload`: nothing is read when the main
      configuration failed to run, when there is no settings file name, or
      when the file cannot be opened (`contents` is `None`); otherwise the
      file's lines are loaded over the existing overlay, which `Reload`
      never clears. */
  function ReloadOverlay(ov: Overlay, configRan: bool, settingsFile: string, contents: Option<string>): (r: Overlay)
    ensures !configRan || settingsFile == [] || contents.None? ==> r == ov
    ensures configRan && settingsFile != [] && contents.Some? ==> r == Load(ov, contents.value)
    ensures ov.Keys <= r.Keys
  {
    if !configRan || settingsFile == [] then ov
    else
      match contents
      case None => ov
      case Some(text) => Load(ov, text)
  }
}

=== FILE: text.dfy ===
/** Character-level helpers of the configuration core: the whitespace
    trimmers of the settings parser, `std::string::find`, and decimal
    integer text (what `std::to_string(int)` prints and what Lua's
    string-to-number coercion reads back). */
module Text {
  import opened Wrappers

  /** The default trim set " \t\n\r\f\v"; it is also the set C's `isspace`
      accepts, which Lua uses when it converts a string to a number. */
  predicate IsSpace(c: char) {
    c == ' ' || c == '\t' || c == '\n' || c == '\r' || c == '\U{000B}' || c == '\U{000C}'
  }

  predicate AllSpace(s: string) {
    forall i | 0 <= i < |s| :: IsSpace(s[i])
  }

  /** Neither end of `s` is whitespace. */
  predicate IsTrimmed(s: string) {
    s == [] || (!IsSpace(s[0]) && !IsSpace(s[|s| - 1]))
  }

  /** `ltrim`: erases everything before the first non-space character (all of
      `s` when there is none). */
  function LTrim(s: string): (r: string)
    ensures |r| <= |s| && r == s[|s| - |r|..]
    ensures forall i | 0 <= i < |s| - |r| :: IsSpace(s[i])
    ensures r == [] || !IsSpace(r[0])
  {
    if s == [] || !IsSpace(s[0]) then s
    else LTrim(s[1..])
  }

  /** `rtrim`: erases everything after the last non-space character (all of
      `s` when there is none). */
  function RTrim(s: string): (r: string)
    ensures |r| <= |s| && r == s[..|r|]
    ensures forall i | |r| <= i < |s| :: IsSpace(s[i])
    ensures r == [] || !IsSpace(r[|r| - 1])
  {
    if s == [] || !IsSpace(s[|s| - 1]) then s
    else RTrim(s[..|s| - 1])
  }

  /** `trim` = `ltrim(rtrim(s))`. */
  function Trim(s: string): (r: string)
    ensures IsTrimmed(r)
    ensures |r| <= |s|
    ensures r == [] <==> AllSpace(s)
  {
    var t := RTrim(s);
    var r := LTrim(t);
    assert r != [] ==> r[|r| - 1] == t[|t| - 1];
    r
  }

  /** Trimming removes characters and adds none. */
  lemma TrimKeepsOut(s: string, c: char)
    requires c !in s
    ensures c !in Trim(s)
  {
    var t := RTrim(s);
    var r := LTrim(t);
    forall i | 0 <= i < |r| ensures r[i] != c {
      assert r[i] == t[|t| - |r| + i] == s[|t| - |r| + i];
    }
  }

  /** `s.find(c)`: the index of the first `c`, or `|s|` standing for `npos`. */
  function Find(s: string, c: char): (r: nat)
    ensures r <= |s|
    ensures r < |s| ==> s[r] == c
    ensures forall i | 0 <= i < r :: s[i] != c
  {
    if s == [] then 0
    else if s[0] == c then 0
    else 1 + Find(s[1..], c)
  }

  /** Right-trimming removes exactly a whitespace tail that follows text
      ending in a non-space character. */
  lemma RTrimPadded(x: string, b: string)
    requires AllSpace(b)
    requires x == [] || !IsSpace(x[|x| - 1])
    requires x == [] ==> b == []
    ensures RTrim(x + b) == x
  {
    var t := x + b;
    var r := RTrim(t);
    if x != [] {
      assert t[|x| - 1] == x[|x| - 1];
    }
  }

  /** Left-trimming removes exactly a whitespace head that precedes text
      starting with a non-space character. */
  lemma LTrimPadded(a: string, s: string)
    requires AllSpace(a) && (s == [] || !IsSpace(s[0]))
    ensures LTrim(a + s) == s
  {
    var t := a + s;
    var r := LTrim(t);
    if s != [] {
      assert t[|a|] == s[0];
    }
  }

  /** Trimming text padded with whitespace on both sides gives the text back,
      as long as the text itself is trimmed. */
  lemma TrimPadded(a: string, s: string, b: string)
    requires AllSpace(a) && AllSpace(b) && IsTrimmed(s)
    ensures Trim(a + s + b) == s
  {
    var t := a + s + b;
    if s == [] {
      assert AllSpace(t) by {
        forall i | 0 <= i < |t| ensures IsSpace(t[i]) {
          if i < |a| { assert t[i] == a[i]; } else { assert t[i] == b[i - |a|]; }
        }
      }
    } else {
      assert t == (a + s) + b;
      assert (a + s)[|a + s| - 1] == s[|s| - 1];
      RTrimPadded(a + s, b);
      LTrimPadded(a, s);
    }
  }

  /** Trimming an already trimmed string changes nothing. */
  lemma TrimOfTrimmed(s: string)
    requires IsTrimmed(s)
    ensures Trim(s) == s
  {
    TrimPadded([], s, []);
    assert [] + s + [] == s;
  }

  predicate IsDigit(c: char) {
    '0' <= c <= '9'
  }

  predicate AllDigits(s: string) {
    forall i | 0 <= i < |s| :: IsDigit(s[i])
  }

  function DigitValue(c: char): (d: nat)
    requires IsDigit(c)
    ensures d < 10
  {
    (c as int) - ('0' as int)
  }

  function DigitChar(d: nat): (c: char)
    requires d < 10
    ensures IsDigit(c) && DigitValue(c) == d
  {
    (('0' as int) + d) as char
  }

  /** The value of a string of decimal digits, most significant first. */
  function DigitsValue(ds: string): nat
    requires AllDigits(ds)
    decreases |ds|
  {
    if ds == [] then 0
    else DigitsValue(ds[..|ds| - 1]) * 10 + DigitValue(ds[|ds| - 1])
  }

  /** The longest prefix of `s` made of digits: what `atoi` reads once it has
      seen a digit first. */
  function LeadingDigits(s: string): (r: string)
    ensures |r| <= |s| && r == s[..|r|]
    ensures AllDigits(r)
    ensures |r| < |s| ==> !IsDigit(s[|r|])
  {
    if s == [] || !IsDigit(s[0]) then []
    else
      var r := LeadingDigits(s[1..]);
      [s[0]] + r
  }

  /** `atoi` applied to a token that starts with a digit, the only tokens
      the path resolver passes it. On other text the result is 0, where C's
      `atoi` would also skip leading whitespace and read a sign. */
  function Atoi(s: string): (r: nat)
    ensures AllDigits(s) ==> r == DigitsValue(s)
    ensures s == [] || !IsDigit(s[0]) ==> r == 0
  {
    assert AllDigits(s) ==> LeadingDigits(s) == s by {
      if AllDigits(s) {
        LeadingDigitsAppend(s, []);
        assert s + [] == s;
      }
    }
    DigitsValue(LeadingDigits(s))
  }

  /** The digits of `p` come first in `p + rest` when `rest` does not
      start with a digit. */
  lemma {:induction false} LeadingDigitsAppend(p: string, rest: string)
    requires AllDigits(p)
    requires rest == [] || !IsDigit(rest[0])
    ensures LeadingDigits(p + rest) == p
    decreases |p|
  {
    if p == [] {
      assert p + rest == rest;
    } else {
      assert (p + rest)[0] == p[0] && (p + rest)[1..] == p[1..] + rest;
      LeadingDigitsAppend(p[1..], rest);
      assert [p[0]] + p[1..] == p;
    }
  }

  /** `atoi` reads a number's decimal text back as the number, whatever
      follows it that does not start with a digit: `2`, `2]` and `2"` all
      read as 2. */
  lemma AtoiOfNatToString(n: nat, rest: string)
    requires rest == [] || !IsDigit(rest[0])
    ensures Atoi(NatToString(n) + rest) == n
  {
    LeadingDigitsAppend(NatToString(n), rest);
  }

  /** Decimal text of a natural number, without leading zeros. */
  function NatToString(n: nat): (r: string)
    ensures r != [] && AllDigits(r)
    ensures r[0] != '0' || r == "0"
    ensures DigitsValue(r) == n
    decreases n
  {
    if n < 10 then [DigitChar(n)]
    else
      var r := NatToString(n / 10) + [DigitChar(n % 10)];
      assert r[..|r| - 1] == NatToString(n / 10);
      r
  }

  /** `std::to_string(int)`: an optional minus sign then the digits. */
  function IntToString(n: int): (r: string)
    ensures r != [] && IsTrimmed(r)
    ensures '\n' !in r && '=' !in r && '\0' !in r
  {
    var r := if n < 0 then "-" + NatToString(-n) else NatToString(n);
    assert !IsDigit('\n') && !IsDigit('=') && !IsDigit('\0');
    assert r[|r| - 1] == NatToString(if n < 0 then -n else n)[|NatToString(if n < 0 then -n else n)| - 1];
    r
  }

  /** Lua's string-to-number coercion restricted to decimal integer text:
      optional surrounding whitespace, an optional sign, then one or more
      digits and nothing else. */
  function ParseDecimal(s: string): Option<int> {
    var t := Trim(s);
    if |t| > 1 && (t[0] == '-' || t[0] == '+') && AllDigits(t[1..]) then
      var v: int := DigitsValue(t[1..]);
      if t[0] == '-' then Some(-v) else Some(v)
    else if |t| > 0 && AllDigits(t) then
      Some(DigitsValue(t))
    else
      None
  }

  /** Decimal text read back by the coercion gives the number that was
      printed. */
  lemma ParseIntToString(n: int)
    ensures ParseDecimal(IntToString(n)) == Some(n)
  {
    var r := IntToString(n);
    TrimOfTrimmed(r);
    if n < 0 {
      assert r[1..] == NatToString(-n);
    } else {
      assert r == NatToString(n);
      assert r[0] != '-' && r[0] != '+';
    }
  }
}

=== FILE: wrappers.dfy ===
/** The optional-result datatype shared by the path resolver, the Lua
    coercions and the decimal parser. */
module Wrappers {

  /** `None` is the resolver's not-found outcome (`LocateValue` returning -1). */
  datatype Option<+T> = None | Some(value: T) {

    /** Returns the value in `Some`, or `default` when `None`. */
    function GetOr(default: T): (r: T)
      ensures Some? ==> r == value
      ensures None? ==> r == default
    {
      match this
      case Some(v) => v
      case None => default
    }
  }
}
